=== FILE: README.md ===
# Blog backend core, modelled in Dafny

This project models the decision logic of a small blog backend. The backend is an Express
REST API over a document database. The four controllers (blogs, comments, categories,
likes) and the Like schema are modelled over an in-memory store. The store is one finite
map per collection: blogs, comments, categories, and Like documents keyed by their unique
(user, blog) pair. Each request handler is a pure function from the store, the caller and
the request to an `Outcome`. An `Outcome` holds the HTTP status code, the store afterwards
and the response payload.

Modules:

- `Wrappers`, `Seqs`: `Option`, plus the array updates the handlers use (`$push` as append, `$pull` as `Pull`, and selection as `Filter`).
- `Pagination`: `parseInt(x) || default`, skip/limit windows, and `Math.ceil(total / limit)`.
- `Model`: the documents, the store, the status codes and `Outcome`.
- `Authorization`: the owner-or-admin test and the role gates of the routes.
- `Invariants`: the store invariant `Valid`. It covers:
  - the publish flag matches the status;
  - every blog's category exists;
  - category names are unique;
  - the Like index is mirrored by `Blog.likes`;
  - the two-level comment tree and its back-references (`Blog.comments`, `Comment.replies`).
- `Blogs`, `Comments`, `Categories`, `Likes`: one module per controller.

Each mutating handler has a lemma saying it preserves `Valid`. Each reaction toggle has a
round-trip lemma. The blog listings and the comment listing each have a lemma saying every
matching document is on exactly one of the pages 1 to `pages`. The category listing has a
lemma saying it shows each active category exactly as the single-category endpoint does.

Two behaviours of the code are worth noting:

- The public blog listing applies an explicit `status` query as given, and falls back to
  `published` only when none is supplied (controllers/blogController.js:91-95). Anyone who
  asks for `status=draft` is shown drafts (`Blogs.DraftsListedOnRequest`).
- Deleting a top-level comment first pulls it from its blog's `comments`, then deletes the
  comments whose parent it is, and only then deletes the comment itself
  (controllers/commentController.js:201-210). Replies of those replies are not deleted
  (`Comments.CascadeStopsAtChildren`).

## Model

| member | source | states |
|---|---|---|
| Seqs.Pull | controllers/commentController.js:196-205 | `$pull` keeps exactly the elements other than the pulled one, each as many times as it occurred, and removes every occurrence of the pulled one. It keeps a list duplicate-free, and a duplicate-free list that held the element gets one shorter. |
| Seqs.PullKeepsOrder | controllers/commentController.js:196-205 | What `$pull` keeps stays in the order in which it occurred in the list. |
| Seqs.PullIsFilter | controllers/commentController.js:196-205 | `$pull` gives exactly the selection of the elements that differ from the pulled one, in their positions' order, so repeated kept elements are not reordered either. |
| Seqs.FilterOrdered | controllers/categoryController.js:52-53 | Selecting some elements of an ordered list keeps them in order. |
| Seqs.FilterKeepsOrder | controllers/commentController.js:86-93 | Selecting elements of a list keeps each pair of them in the order in which they occur in the list. |
| Pagination.ParsedOr | controllers/blogController.js:68-69 | `parseInt(x) \|\| default`: a supplied non-zero value is used as given, and an absent or zero value gives the default. The result is 0 only when the default is 0. |
| Pagination.Window | controllers/blogController.js:70-102 | `.skip((page-1)*limit).limit(limit)`: item `i` of the page is item `(page-1)*limit + i` of the listing. The page holds `limit` items, or fewer only when it reaches the end of the listing. Pages of a duplicate-free listing are duplicate-free. |
| Pagination.WindowLength | controllers/blogController.js:100-102 | A page past the end is empty. Otherwise it holds `limit` items, or all that remain after the skipped ones when fewer are left. |
| Pagination.WindowOrdered | controllers/blogController.js:100-102 | A page of an ordered listing keeps that order. |
| Pagination.PageCount | controllers/blogController.js:114 | `Math.ceil(total/limit)`: the pages hold every item, one page fewer would not, and there are no pages exactly when there are no items. |
| Pagination.WindowCovers | controllers/blogController.js:70-114 | Every item of a listing is on a page numbered from 1 to the reported page count. |
| Pagination.WindowsDisjoint | controllers/blogController.js:70-102 | In a duplicate-free listing, two different pages share no item. |
| Pagination.Paginate | controllers/blogController.js:97-114 | The page is exactly the requested window of the ordered listing, full or reaching its end. The total is the listing's length. The page count is the least number of `limit`-sized pages that hold every item. |
| Blogs.Listing | controllers/blogController.js:97-114 | The page is exactly the requested window of the matching blogs taken newest first: item `i` is match `(page-1)*limit + i`, and the page is full unless the matches run out. The page keeps the newest-first order. Every blog on it matches every supplied filter conjunct. The total is the number of matching blogs, and `pages` is `PageCount(total, limit)`. |
| Blogs.SelectedCount | controllers/blogController.js:97-104 | The newest-first selection lists each matching blog exactly once, so its length is the count `countDocuments` reports. |
| Blogs.ListingCoversEveryMatch | controllers/blogController.js:97-114 | Every matching blog appears on exactly one of pages 1 to `pages`. |
| Blogs.ListingFilter | controllers/blogController.js:72-95 | Category, author and search pass through from the query unchanged. An explicit status is used as given, and `published` is used when none is given. |
| Blogs.GetBlogs | controllers/blogController.js:66-125 | The listing answers 200 and changes nothing. A supplied non-zero page or limit is used, and an absent or zero one gives the default, 1 and 10. The page is the requested window of the newest-first matches, in that order. Without a status only published blogs are listed. Total and pages describe the whole match set. |
| Blogs.DraftsListedOnRequest | controllers/blogController.js:91-95 | Given `status=draft`, the public listing shows every draft on some page. |
| Blogs.GetMyBlogs | controllers/blogController.js:262-302 | Only the caller's own blogs are listed, filtered by status when one is given. A supplied non-zero page or limit is used, and an absent or zero one gives the default, 1 and 10. The page is the requested window of those blogs newest first, in that order. The total counts exactly those blogs, and `pages` is `PageCount(total, limit)`. |
| Blogs.MyBlogsIncludeDrafts | controllers/blogController.js:268-273 | Without a status filter, every blog of the caller, drafts included, is on some page of their own listing. |
| Blogs.CreateBlog | controllers/blogController.js:18-38 | A missing category gives 400 and no change. Otherwise the new blog is stored with the request's fields, the author set to the caller, status `draft` by default, and `isPublished` exactly when the status is `published`. Nothing else changes. |
| Blogs.GetBlogById | controllers/blogController.js:129-142 | A missing blog gives 404. Otherwise the blog is returned with its view count one higher, and nothing else changes. |
| Blogs.UpdateBlog | controllers/blogController.js:170-207 | The checks run in order: 404, then 403 unless owner or admin, then 400 for a named category that does not exist. Otherwise the patch applies field by field: title and content only when non-empty, excerpt and image when supplied, status together with the publish flag. Likes, comments, views and author are kept. |
| Blogs.DeleteBlog | controllers/blogController.js:231-247 | 404, then 403 unless owner or admin. Otherwise exactly that blog is removed. |
| Blogs.CreateBlogPreservesValid | controllers/blogController.js:28-38 | Creating a blog under a fresh id keeps the store invariant. |
| Blogs.AddBlogPreservesValid | controllers/blogController.js:28-38 | Storing a blog that has no reactions or comments, names an existing category and has a matching publish flag, under an id nothing refers to, keeps every invariant. |
| Blogs.ReplaceBlogPreservesValid | controllers/blogController.js:196-207 | Rewriting one blog keeps the invariant when its reaction and comment lists stay the same, its category exists and its publish flag matches its status. |
| Blogs.GetBlogByIdPreservesValid | controllers/blogController.js:141-142 | Counting a view keeps the invariant. |
| Blogs.UpdateBlogPreservesValid | controllers/blogController.js:188-207 | An accepted update keeps the invariant, including publish consistency and category resolution. |
| Blogs.DeleteBlogPreservesValid | controllers/blogController.js:247 | Deleting a blog keeps the invariant. |
| Blogs.RemoveBlogPreservesValid | controllers/blogController.js:247 | Dropping any blog document keeps every invariant, even though its comments and Like documents stay behind. |
| Blogs.DeleteBlogLeavesDependents | controllers/blogController.js:247 | After a blog is deleted, its comments and Like documents remain, naming a blog that is gone. |
| Comments.CreateComment | controllers/commentController.js:18-56 | 404 for a missing blog, then 404 for a named parent that is missing, and 201 exactly when both exist. The stored comment has the caller as author. A reply's id is appended to its parent's `replies` and a top-level comment's id to its blog's `comments`. Nothing else changes. |
| Comments.ReplyMayCrossBlogs | controllers/commentController.js:26-34 | A reply posted on one blog under a comment of another blog is accepted. |
| Comments.ReplyToReplyAccepted | controllers/commentController.js:26-41 | A reply to a reply is accepted, so the tree can grow deeper than two levels. |
| Comments.Threads | controllers/commentController.js:86-93 | Each listed comment, in the given order, carries its thread as `ThreadOf` builds it. |
| Comments.ThreadOf | controllers/commentController.js:86-93 | A thread carries exactly the comment's replies that still exist and are approved, in the order of the comment's `replies`. |
| Comments.ThreadsOfHeads | controllers/commentController.js:80-93 | Each listed thread is an approved top-level comment of the blog, with exactly its approved surviving replies. |
| Comments.GetCommentsByBlog | controllers/commentController.js:74-115 | The page holds only approved top-level comments of the blog, each with exactly its approved replies in their stored order. A supplied non-zero page or limit is used, and an absent or zero one gives the default, 1 and 20. The total counts all approved top-level comments of the blog, and `pages` is `PageCount(total, limit)`. |
| Comments.ThreadPage | controllers/commentController.js:80-112 | The page is exactly the requested window of the approved top-level comments of the blog, newest first: thread `i` belongs to head `(page-1)*limit + i`, the page is full unless the heads run out, and the threads are in newest-first order. The total counts all such comments, and `pages` is `PageCount(total, limit)`. |
| Comments.CommentsPageIsWindow | controllers/commentController.js:76-96 | The endpoint's page is the requested window of the blog's thread heads taken newest first, full unless the heads run out, and in newest-first order. |
| Comments.ThreadPageHeads | controllers/commentController.js:80-93 | Each thread on a page is an approved top-level comment of the blog, carrying exactly its approved replies in their stored order. |
| Comments.ThreadPagesCoverEveryHead | controllers/commentController.js:94-112 | Every approved top-level comment of the blog is on some page from 1 to `pages`, and on no two different pages. |
| Comments.EveryThreadListed | controllers/commentController.js:76-112 | Through the endpoint, with any supplied limit or the default 20, every approved top-level comment of the blog is listed on some page from 1 to the reported page count. |
| Comments.UpdateComment | controllers/commentController.js:136-157 | 404, then 403 unless owner or admin. Content changes only when non-empty. Approval changes only when an admin supplies it. Nothing else changes. |
| Comments.DeleteComment | controllers/commentController.js:180-210 | 404, then 403. A reply is removed alone, and its parent's `replies` becomes exactly `$pull` of the reply from the old list. A top-level comment is removed with its direct replies, and its blog's `comments` becomes exactly `$pull` of the comment from the old list. Nothing else in the parent or blog changes. Afterwards no comment names it as parent. |
| Comments.CascadeStopsAtChildren | controllers/commentController.js:207 | A reply to a direct reply survives the cascade, naming a parent that is gone. |
| Comments.LikeComment | controllers/commentController.js:227-251 | The caller's membership in the comment's `likes` flips and no other user's changes. The response's `isLiked` and `likeCount` are the new membership and the new length. |
| Comments.LikeCommentTwiceRestores | controllers/commentController.js:236-242 | Two toggles restore who likes the comment. Starting from "not liked", they restore the whole store. |
| Comments.AppendReplyKeepsTree | controllers/commentController.js:46-50 | Storing a reply and appending it to its parent's `replies` keeps the comment tree consistent. |
| Comments.AppendTopLevelKeepsTree | controllers/commentController.js:51-55 | Storing a top-level comment and appending it to its blog's `comments` keeps the comment tree consistent. |
| Comments.CreateCommentPreservesValid | controllers/commentController.js:36-56 | Creating a comment under a fresh id keeps the store invariant. |
| Comments.CreateReplyPreservesValid | controllers/commentController.js:43-50 | Storing a reply and appending it to its parent's `replies` keeps the store invariant. |
| Comments.CreateTopLevelPreservesValid | controllers/commentController.js:51-56 | Storing a top-level comment and appending it to its blog's `comments` keeps the store invariant. |
| Comments.ReplaceCommentKeepsTree | controllers/commentController.js:154-157 | Changing a comment's content, approval or likes leaves the tree as it was. |
| Comments.UpdateCommentPreservesValid | controllers/commentController.js:152-159 | An accepted comment update keeps the store invariant. |
| Comments.LikeCommentPreservesValid | controllers/commentController.js:236-242 | A comment like toggle keeps the store invariant, including duplicate-free `likes`. |
| Comments.DetachReplyKeepsTree | controllers/commentController.js:196-200 | Pulling a reply from its parent and deleting it keeps the tree consistent. |
| Comments.CascadeKeepsTree | controllers/commentController.js:201-210 | Pulling a top-level comment from its blog, deleting its direct replies and then itself keeps the tree consistent. |
| Comments.DeleteCommentPreservesValid | controllers/commentController.js:196-210 | Deleting a comment, with or without the cascade, keeps the store invariant. |
| Comments.DeleteReplyPreservesValid | controllers/commentController.js:196-210 | Pulling a reply from its parent and deleting it keeps the store invariant. |
| Comments.DeleteTopLevelPreservesValid | controllers/commentController.js:201-210 | Pulling a top-level comment from its blog, deleting its direct replies and then the comment keeps the store invariant. |
| Categories.CreateCategory | controllers/categoryController.js:16-32 | A name already in use gives 400 and no change. Otherwise the category is stored with the requested name and description. Its color is the requested one when non-empty, and `#3B82F6` otherwise. |
| Categories.PublishedCount | controllers/categoryController.js:57-60 | The count is the number of published blogs naming the category. It is at most the number of blogs in the category, and is 0 exactly when none of them is published. |
| Categories.CreateBlogCounts | controllers/blogController.js:28-38 | Creating a published blog raises its category's published count by exactly one. A draft leaves that count alone. Either raises its category's blog count by one, and every other category keeps both counts. |
| Categories.BlogCount | controllers/categoryController.js:184 | The count is the number of blogs naming the category, of any status. It is at least the published count, and is positive exactly when such a blog exists. |
| Categories.GetCategories | controllers/categoryController.js:52-66 | The listing returns exactly the active categories, each once, in ascending name order, and each with its published-blog count. |
| Categories.ListingAgreesWithById | controllers/categoryController.js:52-100 | Every entry of the listing is exactly what the single-category endpoint returns for its id, and every active category's single view appears in the listing. |
| Categories.ActiveListing | controllers/categoryController.js:52-66 | Selecting the active categories from the name-sorted list keeps every active one, keeps no other, and keeps the name order. |
| Categories.ActiveViewsSound | controllers/categoryController.js:55-66 | Each view built from active ids is that category as stored, with its published-blog count. |
| Categories.ActiveViewsComplete | controllers/categoryController.js:52-66 | When the ids are exactly the active categories, every active category has a view. |
| Categories.ActiveViewsSorted | controllers/categoryController.js:52-53 | Views built from duplicate-free, name-ordered ids are duplicate-free and in ascending name order. |
| Categories.GetCategoryById | controllers/categoryController.js:86-100 | 404 for a missing category. Otherwise the category, active or not, is returned with its published-blog count. |
| Categories.UpdateCategory | controllers/categoryController.js:129-155 | 404. Renaming to a name another category holds gives 400. Keeping the same name, or giving an empty one, skips the check and keeps the name. Description, color and active flag change only when supplied. |
| Categories.DeleteCategory | controllers/categoryController.js:175-192 | 404. While any blog, draft or published, names the category, the answer is 400 and the category stays. Otherwise only that category is removed. |
| Categories.MissingCategoryCodes | controllers/blogController.js:20-26 | A missing category is a 400 when creating a blog but a 404 from the category endpoints. |
| Categories.CreateCategoryPreservesValid | controllers/categoryController.js:18-24 | The duplicate-name check keeps category names unique. |
| Categories.UpdateCategoryPreservesValid | controllers/categoryController.js:140-149 | The rename check keeps category names unique. |
| Categories.DeleteCategoryPreservesValid | controllers/categoryController.js:184-192 | The referential guard keeps every blog's category resolvable. |
| Likes.ToggleLike | controllers/likeController.js:16-84 | A missing blog gives 404 and no change. Without a record, a record of the given type (default `like`) is created, the user is pushed onto `Blog.likes`, and the answer is 201. A record whose stored type equals the submitted type is deleted and the user pulled. Any other submission, an omitted type included, overwrites the type and leaves `Blog.likes` alone. |
| Likes.ToggleLikeIntended | controllers/likeController.js:31-47 | The same toggle with an omitted type read as `like` when compared with the stored record. |
| Likes.ApplyPreservesValid | controllers/likeController.js:31-84 | Each branch keeps the Like index, its mirror in `Blog.likes` and the rest of the invariant. |
| Likes.RemoveKeepsMirror | controllers/likeController.js:33-38 | Deleting the record together with pulling the user keeps membership in `Blog.likes` equal to having a record. |
| Likes.AddKeepsMirror | controllers/likeController.js:63-74 | Creating the record together with pushing the user keeps that equality, and keeps `Blog.likes` free of duplicates. |
| Likes.ToggleLikePreservesValid | controllers/likeController.js:31-84 | Every branch keeps the store invariant: a user is in `Blog.likes` exactly when a Like document exists for the pair. |
| Likes.ToggleLikeIntendedPreservesValid | controllers/likeController.js:31-84 | The corrected toggle keeps the same invariant. |
| Likes.ApplyReportsLikes | controllers/likeController.js:40-83 | On a consistent store, each branch reports `likeCount` as the new length of `Blog.likes`, and `isLiked` as the new membership and record existence. |
| Likes.ToggleLikeReportsLikes | controllers/likeController.js:40-83 | On a consistent store, the reported `likeCount` is the new length of `Blog.likes`, and `isLiked` is the new membership. |
| Likes.ToggleLikeIntendedReportsLikes | controllers/likeController.js:40-83 | The same holds for the corrected toggle. |
| Likes.AddThenRemoveRestores | controllers/likeController.js:33-74 | Creating a reaction and then deleting it gives back the original store exactly. |
| Likes.SameTypeTwiceRestores | controllers/likeController.js:31-74 | Submitting the same explicit type twice from no reaction answers 201 then 200 and returns the store to what it was. |
| Likes.LikeThenDislikeSwitches | controllers/likeController.js:48-60 | A like followed by a dislike changes the type in place, and `Blog.likes` stays one longer than before. |
| Likes.OmittedTypeNeverRemoves | controllers/likeController.js:32 | As written, a toggle with the type omitted always leaves a record for the pair. |
| Likes.OmittedTypeTwiceKeepsLike | controllers/likeController.js:31-60 | As written, two omitted-type toggles from no reaction leave a `like` behind, so the store is not restored. |
| Likes.IntendedTwiceRestores | controllers/likeController.js:31-74 | With the corrected comparison, any submission twice from no reaction restores the store. |
| Likes.IntendedAgreesOnExplicitType | controllers/likeController.js:31-66 | The corrected toggle differs from the written one only when the type is omitted. |
| Likes.GetBlogLikes | controllers/likeController.js:95-123 | 404 for a missing blog. Otherwise `totalLikes` counts the blog's Like documents of type `like` and `totalDislikes` those of type `dislike`. The two add up to `total`, which counts all of the blog's Like documents. There are no dislikes exactly when every record is a like. |
| Likes.KindsPartition | controllers/likeController.js:111-115 | Every Like document is a like or a dislike, never both, so the two counts add up to the total. |
| Likes.PairsCard | models/Like.js:23 | Distinct users give distinct (user, blog) keys, so a blog has as many Like documents as reacting users. |
| Likes.BlogLikesTotalMatchesList | controllers/likeController.js:107-115 | On a consistent store, the reported total equals the number of users in `Blog.likes`. |
| Likes.GetUserLikeStatus | controllers/likeController.js:135-146 | Always 200 with no change. `isLiked` is true exactly when a record exists, and `likeType` is its type, or absent. |
| Likes.StatusAfterToggle | controllers/likeController.js:135-145 | After a toggle, the status endpoint agrees with the toggle's `isLiked` and reports the stored type. |
| Likes.OneRecordPerPair | models/Like.js:23 | Two Like documents for the same user and blog are the same document. |
| Likes.CreatedTypeDefaultsToLike | models/Like.js:14-18 | A reaction created without a type is stored as `like`. |

## Left out

- Request validation (the express-validator chains of the route files, answered with 400) is left out. Handlers receive well-typed requests.
- The 500 catch-all paths are left out, including ObjectId cast errors and unique-index violations raised by the database.
- Authentication is left out. The caller is a parameter, the route gates `authorize('author', 'admin')` and `authorize('admin')` are preconditions, and middleware/auth.js is not part of this model.
- `populate` projections, response messages and the envelope fields other than `data` are left out.
- The case-insensitive regular-expression search is an uninterpreted `hit(pattern, text)` parameter.
- Sorting on `createdAt` and on `name` is done by the database. The model takes the sorted id list as an input that lists every stored id once. For categories, that list must be ordered by `NameBefore`, which is character order, not the database collation.
- Fresh ObjectIds are parameters, required to be unused, and for blogs and comments not named by any leftover document.
- `parseInt` is modelled only for absent or natural-number values. Negative and non-numeric page or limit strings are left out.
- The `status` query parameter is one of the two enum values. Any other string would match nothing and is left out.
- A JSON `null` sent for an optional field is not distinguished from a value. The model separates only "absent" (`undefined`) from "present".
- Schema defaults for blogs, comments and categories are left out, because models/Blog.js, models/Comment.js and models/Category.js are not part of this model. Views start at 0 and arrays empty. The `isApproved` and `isActive` defaults are parameters.
- Concurrency is left out. Each handler runs its reads and writes as one step, so read-then-write races and last-write-wins are not modelled.
- Timestamps, the `createdAt` of Like documents and the order in which `getBlogLikes` returns them are left out. Only the counts are modelled.
- Users, the admin controller, the server setup, rate limits and the health probe are outside the modelled core.
- Likes.ToggleLike: after an omitted-type change, the stored type is modelled as `like`. That is what the document reads back as under the schema default, and setting the field to `undefined` in the database itself is not modelled.

## Findings

| source | as written | input that shows it | evidently intended | confidence | as-written member | corrected member |
|---|---|---|---|---|---|---|
| controllers/likeController.js:32 | `existingLike.type === type` compares the stored type with `undefined` when the type is omitted, so the comparison is false and the "change" branch runs. The type is set to `undefined`, which reads back as the default `like`. | A user posts `{ blog }` twice with no `type`. The first post creates a `like` (201). The second answers 200 "Changed to undefined" and leaves the record and the `Blog.likes` entry in place. | An omitted type means `like` here too, as it does on creation (line 66). The second post should then remove the like and restore the store. | not executed; medium-low, since `type` is optional in the route validation and defaults to `like` in models/Like.js | Likes.OmittedTypeTwiceKeepsLike | Likes.IntendedTwiceRestores |

=== FILE: authorization.dfy ===
/** Who may act on which resource; pure predicates over already-fetched documents. */
module Authorization {
  import opened Model

  /** Owner-or-admin: the check every blog and comment update or delete applies. */
  predicate CanMutate(caller: Caller, owner: UserId) {
    caller.id == owner || caller.role == Admin
  }

  /** The route gate `authorize('author', 'admin')` in front of blog creation, update, deletion and "my blogs". */
  predicate CanWriteBlogs(role: Role) {
    role == Author || role == Admin
  }

  /** The route gate `authorize('admin')` in front of every category mutation. */
  predicate CanManageCategories(role: Role) {
    role == Admin
  }

  /** Only an admin may change a comment's approval flag. */
  predicate CanModerate(role: Role) {
    role == Admin
  }
}

=== FILE: blogs.dfy ===
/**
 * The blog handlers: creation with the publish flag, the public listing with its
 * conjunctive filter and `published` default, reading with the view counter,
 * owner-or-admin update and delete, and the caller's own listing.
 */
module Blogs {
  import opened Wrappers
  import opened Seqs
  import opened Pagination
  import opened Model
  import opened Authorization
  import opened Invariants

  /** The body of a create request; absent optional fields are None. */
  datatype NewBlog = NewBlog(
    title: string,
    content: string,
    excerpt: Option<string>,
    category: CategoryId,
    tags: Option<seq<string>>,
    featuredImage: Option<string>,
    status: Option<PublishStatus>)

  /** The body of an update request; every field may be absent. */
  datatype BlogPatch = BlogPatch(
    title: Option<string>,
    content: Option<string>,
    excerpt: Option<string>,
    category: Option<CategoryId>,
    tags: Option<seq<string>>,
    featuredImage: Option<string>,
    status: Option<PublishStatus>)

  /** The query string of the public listing. */
  datatype BlogQuery = BlogQuery(
    page: Option<nat>,
    limit: Option<nat>,
    category: Option<CategoryId>,
    author: Option<UserId>,
    search: Option<string>,
    status: Option<PublishStatus>)

  /** The query string of the caller's own listing. */
  datatype MyBlogsQuery = MyBlogsQuery(page: Option<nat>, limit: Option<nat>, status: Option<PublishStatus>)

  /** A database query on blogs: each present field is one conjunct. */
  datatype BlogFilter = BlogFilter(
    category: Option<CategoryId>,
    author: Option<UserId>,
    search: Option<string>,
    status: Option<PublishStatus>)

  /**
   * Whether a blog satisfies every conjunct of the filter. `hit(pattern, text)` is the
   * database's case-insensitive pattern match; an empty search string is falsy and adds
   * no conjunct.
   */
  predicate Matches(b: Blog, f: BlogFilter, hit: (string, string) -> bool) {
    && (f.category.Some? ==> b.category == f.category.value)
    && (f.author.Some? ==> b.author == f.author.value)
    && (f.search.Some? && f.search.value != "" ==>
          || hit(f.search.value, b.title)
          || hit(f.search.value, b.content)
          || (b.excerpt.Some? && hit(f.search.value, b.excerpt.value)))
    && (f.status.Some? ==> b.status == f.status.value)
  }

  /** The ids of all stored blogs that match the filter. */
  ghost function MatchSet(st: Store, f: BlogFilter, hit: (string, string) -> bool): set<BlogId> {
    set id | id in st.blogs && Matches(st.blogs[id], f, hit)
  }

  /** The selection test the database applies to each stored id. */
  function IsMatch(st: Store, f: BlogFilter, hit: (string, string) -> bool): BlogId -> bool {
    id => id in st.blogs && Matches(st.blogs[id], f, hit)
  }

  /** The matching blogs, newest first. */
  function Selected(st: Store, newestFirst: seq<BlogId>, f: BlogFilter, hit: (string, string) -> bool): seq<BlogId> {
    Filter(newestFirst, IsMatch(st, f, hit))
  }

  /**
   * One page of the matching blogs with the pagination block. `newestFirst` lists every
   * stored blog once, newest first (the database sorts on `createdAt`).
   */
  function Listing(st: Store, newestFirst: seq<BlogId>, f: BlogFilter, hit: (string, string) -> bool, page: nat, limit: nat): (p: PageOf<BlogId>)
    requires Enumerates(newestFirst, st.blogs.Keys)
    requires page >= 1 && limit >= 1
    ensures p.page == page && p.limit == limit
    ensures |p.items| <= limit && NoDup(p.items)
    ensures |p.items| == limit || Skip(page, limit) + |p.items| >= |Selected(st, newestFirst, f, hit)|
    ensures forall i :: 0 <= i < |p.items| ==>
              Skip(page, limit) + i < |Selected(st, newestFirst, f, hit)|
              && p.items[i] == Selected(st, newestFirst, f, hit)[Skip(page, limit) + i]
    ensures Ordered(p.items, Precedes(newestFirst))
    ensures forall id :: id in p.items ==> id in st.blogs && Matches(st.blogs[id], f, hit)
    ensures p.total == |MatchSet(st, f, hit)|
    ensures p.pages == PageCount(p.total, limit)
  {
    var all := Selected(st, newestFirst, f, hit);
    SelectedCount(st, newestFirst, f, hit);
    FilterKeepsOrder(newestFirst, IsMatch(st, f, hit));
    WindowOrdered(all, page, limit, Precedes(newestFirst));
    Paginate(all, page, limit)
  }

  /** The selection lists every matching blog once. */
  lemma SelectedCount(st: Store, newestFirst: seq<BlogId>, f: BlogFilter, hit: (string, string) -> bool)
    requires Enumerates(newestFirst, st.blogs.Keys)
    ensures NoDup(Selected(st, newestFirst, f, hit))
    ensures forall id :: id in Selected(st, newestFirst, f, hit) <==> id in MatchSet(st, f, hit)
    ensures |Selected(st, newestFirst, f, hit)| == |MatchSet(st, f, hit)|
  {
    var p := IsMatch(st, f, hit);
    FilterCount(newestFirst, st.blogs.Keys, p);
    var a := Satisfying(st.blogs.Keys, p);
    forall id ensures id in a <==> id in MatchSet(st, f, hit) {
      assert p(id) == (id in st.blogs && Matches(st.blogs[id], f, hit));
    }
    assert a == MatchSet(st, f, hit);
  }

  /** Every matching blog is on exactly one of the pages 1 .. pages. */
  lemma ListingCoversEveryMatch(st: Store, newestFirst: seq<BlogId>, f: BlogFilter, hit: (string, string) -> bool, limit: nat, id: BlogId)
    requires Enumerates(newestFirst, st.blogs.Keys)
    requires limit >= 1
    requires id in MatchSet(st, f, hit)
    ensures exists page :: 1 <= page <= Listing(st, newestFirst, f, hit, 1, limit).pages
                        && id in Listing(st, newestFirst, f, hit, page, limit).items
    ensures forall p, q :: 1 <= p < q && id in Listing(st, newestFirst, f, hit, p, limit).items ==>
                        id !in Listing(st, newestFirst, f, hit, q, limit).items
  {
    var all := Selected(st, newestFirst, f, hit);
    SelectedCount(st, newestFirst, f, hit);
    assert id in all;
    var i :| 0 <= i < |all| && all[i] == id;
    WindowCovers(all, limit, i);
    var page := i / limit + 1;
    ListingIsWindow(st, newestFirst, f, hit, 1, limit);
    ListingIsWindow(st, newestFirst, f, hit, page, limit);
    forall p, q | 1 <= p < q && id in Listing(st, newestFirst, f, hit, p, limit).items
      ensures id !in Listing(st, newestFirst, f, hit, q, limit).items
    {
      ListingIsWindow(st, newestFirst, f, hit, p, limit);
      ListingIsWindow(st, newestFirst, f, hit, q, limit);
      WindowsDisjoint(all, limit, p, q, id);
    }
  }

  /** A listing page is the window of the selection; the proofs about pages go through this. */
  lemma ListingIsWindow(st: Store, newestFirst: seq<BlogId>, f: BlogFilter, hit: (string, string) -> bool, page: nat, limit: nat)
    requires Enumerates(newestFirst, st.blogs.Keys)
    requires page >= 1 && limit >= 1
    ensures Listing(st, newestFirst, f, hit, page, limit).items == Window(Selected(st, newestFirst, f, hit), page, limit)
    ensures Listing(st, newestFirst, f, hit, page, limit).pages == PageCount(|Selected(st, newestFirst, f, hit)|, limit)
  {
  }

  /** The filter of the public listing: the supplied conjuncts, with `status` defaulting to `published`. */
  function ListingFilter(q: BlogQuery): (f: BlogFilter)
    ensures f.category == q.category && f.author == q.author && f.search == q.search
    ensures q.status.Some? ==> f.status == q.status
    ensures q.status.None? ==> f.status == Some(Published)
  {
    BlogFilter(q.category, q.author, q.search, Some(q.status.GetOr(Published)))
  }

  /** GET /api/blogs. */
  function GetBlogs(st: Store, q: BlogQuery, newestFirst: seq<BlogId>, hit: (string, string) -> bool): (o: Outcome<PageOf<BlogId>>)
    requires Enumerates(newestFirst, st.blogs.Keys)
    ensures o.code == OK && o.store == st && o.data.Some?
    ensures q.page.None? ==> o.data.value.page == 1
    ensures q.page.Some? && q.page.value >= 1 ==> o.data.value.page == q.page.value
    ensures q.limit.None? ==> o.data.value.limit == 10
    ensures q.limit.Some? && q.limit.value >= 1 ==> o.data.value.limit == q.limit.value
    ensures o.data.value.page == ParsedOr(q.page, 1) && o.data.value.limit == ParsedOr(q.limit, 10)
    ensures o.data.value.page >= 1 && o.data.value.limit >= 1 && |o.data.value.items| <= o.data.value.limit
    ensures forall id :: id in o.data.value.items ==>
              id in st.blogs && Matches(st.blogs[id], BlogFilter(q.category, q.author, q.search, q.status), hit)
    ensures q.status.None? ==> forall id :: id in o.data.value.items ==> st.blogs[id].status == Published
    ensures o.data.value.total == |MatchSet(st, ListingFilter(q), hit)|
    ensures o.data.value.pages == PageCount(o.data.value.total, o.data.value.limit)
    ensures var p, all := o.data.value, Selected(st, newestFirst, ListingFilter(q), hit);
            var skip := Skip(ParsedOr(q.page, 1), ParsedOr(q.limit, 10));
            && (|p.items| == p.limit || skip + |p.items| >= |all|)
            && (forall i :: 0 <= i < |p.items| ==> skip + i < |all| && p.items[i] == all[skip + i])
    ensures Ordered(o.data.value.items, Precedes(newestFirst))
  {
    var p := Listing(st, newestFirst, ListingFilter(q), hit, ParsedOr(q.page, 1), ParsedOr(q.limit, 10));
    Outcome(OK, st, Some(p))
  }

  /** The public listing takes an explicit `status` as given: anyone who asks for drafts gets every draft, page by page. */
  lemma DraftsListedOnRequest(st: Store, newestFirst: seq<BlogId>, hit: (string, string) -> bool, limit: Option<nat>, id: BlogId)
    requires Enumerates(newestFirst, st.blogs.Keys)
    requires id in st.blogs && st.blogs[id].status == Draft
    ensures var q := BlogQuery(None, limit, None, None, None, Some(Draft));
            exists page :: 1 <= page <= GetBlogs(st, q, newestFirst, hit).data.value.pages
              && id in GetBlogs(st, q.(page := Some(page)), newestFirst, hit).data.value.items
  {
    var q := BlogQuery(None, limit, None, None, None, Some(Draft));
    var f := ListingFilter(q);
    var lim := ParsedOr(limit, 10);
    assert id in MatchSet(st, f, hit);
    ListingCoversEveryMatch(st, newestFirst, f, hit, lim, id);
    var page :| 1 <= page <= Listing(st, newestFirst, f, hit, 1, lim).pages
             && id in Listing(st, newestFirst, f, hit, page, lim).items;
    var q' := q.(page := Some(page));
    GetBlogsIsListing(st, q', newestFirst, hit);
    GetBlogsIsListing(st, q, newestFirst, hit);
    assert ListingFilter(q') == f;
  }

  /** The public listing is one page of `Listing` under the query's filter, page and limit. */
  lemma GetBlogsIsListing(st: Store, q: BlogQuery, newestFirst: seq<BlogId>, hit: (string, string) -> bool)
    requires Enumerates(newestFirst, st.blogs.Keys)
    ensures GetBlogs(st, q, newestFirst, hit).data.value ==
              Listing(st, newestFirst, ListingFilter(q), hit, ParsedOr(q.page, 1), ParsedOr(q.limit, 10))
  {
  }

  /** The filter of the caller's own listing: their blogs, with no status default. */
  function MyBlogsFilter(caller: Caller, status: Option<PublishStatus>): BlogFilter {
    BlogFilter(None, Some(caller.id), None, status)
  }

  /** The caller's own listing has no search conjunct, so the pattern match is never consulted. */
  predicate NoSearch(pattern: string, text: string) {
    false
  }

  /** GET /api/blogs/my. */
  function GetMyBlogs(st: Store, caller: Caller, q: MyBlogsQuery, newestFirst: seq<BlogId>): (o: Outcome<PageOf<BlogId>>)
    requires CanWriteBlogs(caller.role)
    requires Enumerates(newestFirst, st.blogs.Keys)
    ensures o.code == OK && o.store == st && o.data.Some?
    ensures q.page.None? ==> o.data.value.page == 1
    ensures q.page.Some? && q.page.value >= 1 ==> o.data.value.page == q.page.value
    ensures q.limit.None? ==> o.data.value.limit == 10
    ensures q.limit.Some? && q.limit.value >= 1 ==> o.data.value.limit == q.limit.value
    ensures o.data.value.page == ParsedOr(q.page, 1) && o.data.value.limit == ParsedOr(q.limit, 10)
    ensures o.data.value.page >= 1 && o.data.value.limit >= 1 && |o.data.value.items| <= o.data.value.limit
    ensures forall id :: id in o.data.value.items ==> id in st.blogs && st.blogs[id].author == caller.id
    ensures q.status.Some? ==> forall id :: id in o.data.value.items ==> st.blogs[id].status == q.status.value
    ensures o.data.value.total ==
              |set id | id in st.blogs && st.blogs[id].author == caller.id && (q.status.Some? ==> st.blogs[id].status == q.status.value)|
    ensures o.data.value.pages == PageCount(o.data.value.total, o.data.value.limit)
    ensures var p, all := o.data.value, Selected(st, newestFirst, MyBlogsFilter(caller, q.status), NoSearch);
            var skip := Skip(ParsedOr(q.page, 1), ParsedOr(q.limit, 10));
            && (|p.items| == p.limit || skip + |p.items| >= |all|)
            && (forall i :: 0 <= i < |p.items| ==> skip + i < |all| && p.items[i] == all[skip + i])
    ensures Ordered(o.data.value.items, Precedes(newestFirst))
  {
    MyBlogsMatchSet(st, caller, q.status);
    var p := Listing(st, newestFirst, MyBlogsFilter(caller, q.status), NoSearch, ParsedOr(q.page, 1), ParsedOr(q.limit, 10));
    assert p.page >= 1 && p.limit >= 1;
    Outcome(OK, st, Some(p))
  }

  lemma MyBlogsMatchSet(st: Store, caller: Caller, status: Option<PublishStatus>)
    ensures MatchSet(st, MyBlogsFilter(caller, status), NoSearch) ==
              set id | id in st.blogs && st.blogs[id].author == caller.id && (status.Some? ==> st.blogs[id].status == status.value)
  {
  }

  /** With no status given, every blog of the caller, draft or published, is on one of the pages. */
  lemma MyBlogsIncludeDrafts(st: Store, caller: Caller, q: MyBlogsQuery, newestFirst: seq<BlogId>, id: BlogId)
    requires CanWriteBlogs(caller.role)
    requires Enumerates(newestFirst, st.blogs.Keys)
    requires q.status.None?
    requires id in st.blogs && st.blogs[id].author == caller.id
    ensures exists page :: 1 <= page <= GetMyBlogs(st, caller, q, newestFirst).data.value.pages
              && id in GetMyBlogs(st, caller, q.(page := Some(page)), newestFirst).data.value.items
  {
    var f := MyBlogsFilter(caller, q.status);
    var limit := ParsedOr(q.limit, 10);
    assert id in MatchSet(st, f, NoSearch);
    ListingCoversEveryMatch(st, newestFirst, f, NoSearch, limit, id);
    var page :| 1 <= page <= Listing(st, newestFirst, f, NoSearch, 1, limit).pages
             && id in Listing(st, newestFirst, f, NoSearch, page, limit).items;
    var o := GetMyBlogs(st, caller, q.(page := Some(page)), newestFirst);
    assert o.data.value == Listing(st, newestFirst, f, NoSearch, page, limit);
    assert GetMyBlogs(st, caller, q, newestFirst).data.value.pages == Listing(st, newestFirst, f, NoSearch, 1, limit).pages;
  }

  /** The document `createBlog` builds from the request. */
  ghost predicate BuiltFrom(b: Blog, caller: Caller, req: NewBlog) {
    && b.title == req.title && b.content == req.content && b.excerpt == req.excerpt
    && b.author == caller.id && b.category == req.category
    && b.tags == req.tags.GetOr([])
    && b.featuredImage == req.featuredImage.GetOr("")
    && b.status == req.status.GetOr(Draft)
    && (b.isPublished <==> req.status == Some(Published))
    && b.views == 0 && b.likes == [] && b.comments == []
  }

  /** POST /api/blogs: the category must exist (400 otherwise); a new blog is a draft unless a status is given. */
  function CreateBlog(st: Store, caller: Caller, req: NewBlog, newId: BlogId): (o: Outcome<BlogId>)
    requires CanWriteBlogs(caller.role)
    requires newId !in st.blogs
    ensures req.category !in st.categories ==> o == Fail(st, BadRequest)
    ensures req.category in st.categories ==>
              && o.code == Created && o.data == Some(newId)
              && o.store.blogs.Keys == st.blogs.Keys + {newId}
              && BuiltFrom(o.store.blogs[newId], caller, req)
              && PublishConsistent(o.store.blogs[newId])
              && (forall id :: id in st.blogs ==> o.store.blogs[id] == st.blogs[id])
              && o.store.(blogs := st.blogs) == st
  {
    if req.category !in st.categories then Fail(st, BadRequest)
    else
      var status := req.status.GetOr(Draft);
      var b := Blog(req.title, req.content, req.excerpt, caller.id, req.category, req.tags.GetOr([]),
                    req.featuredImage.GetOr(""), status, req.status == Some(Published), 0, [], []);
      Outcome(Created, st.(blogs := st.blogs[newId := b]), Some(newId))
  }

  /** GET /api/blogs/:id: a read bumps the view counter by one and touches nothing else. */
  function GetBlogById(st: Store, id: BlogId): (o: Outcome<Blog>)
    ensures id !in st.blogs ==> o == Fail(st, NotFound)
    ensures id in st.blogs ==>
              && o.code == OK && o.store.blogs.Keys == st.blogs.Keys
              && o.data == Some(o.store.blogs[id])
              && o.store.blogs[id].views == st.blogs[id].views + 1
              && o.store.blogs[id].(views := st.blogs[id].views) == st.blogs[id]
              && (forall other :: other in st.blogs && other != id ==> o.store.blogs[other] == st.blogs[other])
              && o.store.(blogs := st.blogs) == st
  {
    if id !in st.blogs then Fail(st, NotFound)
    else
      var b := st.blogs[id].(views := st.blogs[id].views + 1);
      Outcome(OK, st.(blogs := st.blogs[id := b]), Some(b))
  }

  /** `if (x) field = x` for a string: absent and empty strings keep the old value. */
  function IfTruthy(x: Option<string>, prev: string): string {
    if x.Some? && x.value != "" then x.value else prev
  }

  /** The effect of an accepted update on one blog, field by field. */
  ghost predicate PatchedBy(prev: Blog, patch: BlogPatch, b: Blog) {
    && (patch.title.Some? && patch.title.value != "" ==> b.title == patch.title.value)
    && (patch.title.None? || patch.title.value == "" ==> b.title == prev.title)
    && (patch.content.Some? && patch.content.value != "" ==> b.content == patch.content.value)
    && (patch.content.None? || patch.content.value == "" ==> b.content == prev.content)
    && b.excerpt == (if patch.excerpt.Some? then patch.excerpt else prev.excerpt)
    && b.category == patch.category.GetOr(prev.category)
    && b.tags == patch.tags.GetOr(prev.tags)
    && b.featuredImage == patch.featuredImage.GetOr(prev.featuredImage)
    && (patch.status.Some? ==> b.status == patch.status.value && PublishConsistent(b))
    && (patch.status.None? ==> b.status == prev.status && b.isPublished == prev.isPublished)
    && b.author == prev.author && b.views == prev.views
    && b.likes == prev.likes && b.comments == prev.comments
  }

  /**
   * PUT /api/blogs/:id: 404 for a missing blog whoever asks, then 403 unless owner or
   * admin, then 400 for a named category that does not exist; otherwise the patch applies.
   */
  function UpdateBlog(st: Store, caller: Caller, id: BlogId, patch: BlogPatch): (o: Outcome<Blog>)
    requires CanWriteBlogs(caller.role)
    ensures id !in st.blogs ==> o == Fail(st, NotFound)
    ensures id in st.blogs && !CanMutate(caller, st.blogs[id].author) ==> o == Fail(st, Forbidden)
    ensures (id in st.blogs && CanMutate(caller, st.blogs[id].author)
             && patch.category.Some? && patch.category.value !in st.categories) ==> o == Fail(st, BadRequest)
    ensures (id in st.blogs && CanMutate(caller, st.blogs[id].author)
             && (patch.category.Some? ==> patch.category.value in st.categories)) ==>
              && o.code == OK && o.store.blogs.Keys == st.blogs.Keys
              && o.data == Some(o.store.blogs[id])
              && PatchedBy(st.blogs[id], patch, o.store.blogs[id])
              && (forall other :: other in st.blogs && other != id ==> o.store.blogs[other] == st.blogs[other])
              && o.store.(blogs := st.blogs) == st
  {
    if id !in st.blogs then Fail(st, NotFound)
    else
      var b := st.blogs[id];
      if !CanMutate(caller, b.author) then Fail(st, Forbidden)
      else if patch.category.Some? && patch.category.value !in st.categories then Fail(st, BadRequest)
      else
        var b' := b.(
          category := patch.category.GetOr(b.category),
          title := IfTruthy(patch.title, b.title),
          content := IfTruthy(patch.content, b.content),
          excerpt := if patch.excerpt.Some? then patch.excerpt else b.excerpt,
          tags := patch.tags.GetOr(b.tags),
          featuredImage := patch.featuredImage.GetOr(b.featuredImage),
          status := patch.status.GetOr(b.status),
          isPublished := if patch.status.Some? then patch.status.value == Published else b.isPublished);
        Outcome(OK, st.(blogs := st.blogs[id := b']), Some(b'))
  }

  /** DELETE /api/blogs/:id: 404, then 403 unless owner or admin; otherwise only the blog document goes. */
  function DeleteBlog(st: Store, caller: Caller, id: BlogId): (o: Outcome<()>)
    requires CanWriteBlogs(caller.role)
    ensures id !in st.blogs ==> o == Fail(st, NotFound)
    ensures id in st.blogs && !CanMutate(caller, st.blogs[id].author) ==> o == Fail(st, Forbidden)
    ensures id in st.blogs && CanMutate(caller, st.blogs[id].author) ==>
              && o.code == OK
              && o.store.blogs.Keys == st.blogs.Keys - {id}
              && (forall other :: other in o.store.blogs ==> o.store.blogs[other] == st.blogs[other])
              && o.store.(blogs := st.blogs) == st
  {
    if id !in st.blogs then Fail(st, NotFound)
    else if !CanMutate(caller, st.blogs[id].author) then Fail(st, Forbidden)
    else Outcome(OK, st.(blogs := st.blogs - {id}), None)
  }

  /** Creating a blog under an id no leftover comment or Like names keeps the store consistent; the new blog's flag matches its status. */
  lemma CreateBlogPreservesValid(st: Store, caller: Caller, req: NewBlog, newId: BlogId)
    requires Valid(st) && CanWriteBlogs(caller.role) && FreshBlogId(st, newId)
    ensures Valid(CreateBlog(st, caller, req, newId).store)
  {
    var o := CreateBlog(st, caller, req, newId);
    if o.code == Created {
      assert o.store == st.(blogs := st.blogs[newId := o.store.blogs[newId]]);
      AddBlogPreservesValid(st, newId, o.store.blogs[newId]);
    }
  }

  /** Storing a blog with no reactions and no comments under a fresh id keeps the store valid. */
  lemma AddBlogPreservesValid(st: Store, id: BlogId, b: Blog)
    requires Valid(st) && FreshBlogId(st, id)
    requires b.likes == [] && b.comments == [] && b.category in st.categories && PublishConsistent(b)
    ensures Valid(st.(blogs := st.blogs[id := b]))
  {
    var s := st.(blogs := st.blogs[id := b]);
    assert AllPublishConsistent(s) && CategoriesResolve(s);
    AddBlogKeepsMirror(st, id, b);
    AddBlogKeepsTree(st, id, b);
  }

  lemma AddBlogKeepsMirror(st: Store, id: BlogId, b: Blog)
    requires LikesIndexed(st) && LikesMirrored(st) && FreshBlogId(st, id) && b.likes == []
    ensures LikesIndexed(st.(blogs := st.blogs[id := b])) && LikesMirrored(st.(blogs := st.blogs[id := b]))
  {
    var s := st.(blogs := st.blogs[id := b]);
    forall x | x in s.blogs
      ensures NoDup(s.blogs[x].likes) && forall u :: u in s.blogs[x].likes <==> LikeKey(u, x) in s.likes
    {
      if x == id {
        forall u ensures LikeKey(u, x) !in s.likes {
          assert LikeKey(u, x).blog == id;
        }
      } else {
        assert s.blogs[x] == st.blogs[x];
      }
    }
  }

  lemma AddBlogKeepsTree(st: Store, id: BlogId, b: Blog)
    requires CommentTree(st) && FreshBlogId(st, id) && b.comments == []
    ensures CommentTree(st.(blogs := st.blogs[id := b]))
  {
    var s := st.(blogs := st.blogs[id := b]);
    assert ThreadsLinked(s) by {
      forall x, c | x in s.blogs && c in s.blogs[x].comments
        ensures c in s.comments && s.comments[c].parentComment.None? && s.comments[c].blog == x
      {
        assert x != id && s.blogs[x] == st.blogs[x];
      }
    }
    assert BlogsListTopLevel(s) by {
      forall c | c in s.comments && s.comments[c].parentComment.None? && s.comments[c].blog in s.blogs
        ensures c in s.blogs[s.comments[c].blog].comments
      {
        assert s.comments[c].blog != id;
      }
    }
  }

  /** Replacing one blog by a document with the same reaction and comment lists, a resolvable category and a consistent publish flag keeps the store valid. */
  lemma ReplaceBlogPreservesValid(st: Store, id: BlogId, b: Blog)
    requires Valid(st) && id in st.blogs
    requires b.likes == st.blogs[id].likes && b.comments == st.blogs[id].comments
    requires b.category in st.categories && PublishConsistent(b)
    ensures Valid(st.(blogs := st.blogs[id := b]))
  {
    var s := st.(blogs := st.blogs[id := b]);
    SameThreadListsKeepTree(st, s);
    SameReactionListsKeepMirror(st, s);
    assert AllPublishConsistent(s);
    assert CategoriesResolve(s);
  }

  lemma GetBlogByIdPreservesValid(st: Store, id: BlogId)
    requires Valid(st)
    ensures Valid(GetBlogById(st, id).store)
  {
    if id in st.blogs {
      var b := st.blogs[id].(views := st.blogs[id].views + 1);
      assert PublishConsistent(st.blogs[id]);
      ReplaceBlogPreservesValid(st, id, b);
      assert GetBlogById(st, id).store == st.(blogs := st.blogs[id := b]);
    }
  }

  lemma UpdateBlogPreservesValid(st: Store, caller: Caller, id: BlogId, patch: BlogPatch)
    requires Valid(st) && CanWriteBlogs(caller.role)
    ensures Valid(UpdateBlog(st, caller, id, patch).store)
  {
    var o := UpdateBlog(st, caller, id, patch);
    if o.code == OK {
      ReplaceBlogPreservesValid(st, id, o.store.blogs[id]);
      assert o.store == st.(blogs := st.blogs[id := o.store.blogs[id]]);
    }
  }

  lemma DeleteBlogPreservesValid(st: Store, caller: Caller, id: BlogId)
    requires Valid(st) && CanWriteBlogs(caller.role)
    ensures Valid(DeleteBlog(st, caller, id).store)
  {
    var o := DeleteBlog(st, caller, id);
    if o.code == OK {
      assert o.store == st.(blogs := st.blogs - {id});
      RemoveBlogPreservesValid(st, id);
    }
  }

  /** Dropping a blog document keeps the store valid: the invariants only ask about blogs that exist. */
  lemma RemoveBlogPreservesValid(st: Store, id: BlogId)
    requires Valid(st)
    ensures Valid(st.(blogs := st.blogs - {id}))
  {
    var s := st.(blogs := st.blogs - {id});
    assert AllPublishConsistent(s) && CategoriesResolve(s);
    assert LikesMirrored(s) by {
      forall x | x in s.blogs
        ensures NoDup(s.blogs[x].likes) && forall u :: u in s.blogs[x].likes <==> LikeKey(u, x) in s.likes
      {
        assert s.blogs[x] == st.blogs[x];
      }
    }
    RemoveBlogKeepsTree(st, id);
  }

  lemma RemoveBlogKeepsTree(st: Store, id: BlogId)
    requires CommentTree(st)
    ensures CommentTree(st.(blogs := st.blogs - {id}))
  {
    var s := st.(blogs := st.blogs - {id});
    assert ThreadsLinked(s) by {
      forall x, c | x in s.blogs && c in s.blogs[x].comments
        ensures c in s.comments && s.comments[c].parentComment.None? && s.comments[c].blog == x
      {
        assert s.blogs[x] == st.blogs[x];
      }
    }
    assert BlogsListTopLevel(s) by {
      forall c | c in s.comments && s.comments[c].parentComment.None? && s.comments[c].blog in s.blogs
        ensures c in s.blogs[s.comments[c].blog].comments
      {
        assert s.blogs[s.comments[c].blog] == st.blogs[s.comments[c].blog];
      }
    }
  }

  /** Deleting a blog removes neither its comments nor its Like documents: they stay behind, naming a missing blog. */
  lemma DeleteBlogLeavesDependents(st: Store, caller: Caller, id: BlogId)
    requires CanWriteBlogs(caller.role)
    requires id in st.blogs && CanMutate(caller, st.blogs[id].author)
    ensures forall c :: c in st.comments && st.comments[c].blog == id ==>
              c in DeleteBlog(st, caller, id).store.comments && DeleteBlog(st, caller, id).store.comments[c].blog !in DeleteBlog(st, caller, id).store.blogs
    ensures forall k :: k in st.likes && k.blog == id ==> k in DeleteBlog(st, caller, id).store.likes
  {
  }
}

=== FILE: categories.dfy ===
/**
 * The category handlers: names are unique across categories, listings carry live
 * published-blog counts, and a category cannot be deleted while any blog names it.
 */
module Categories {
  import opened Wrappers
  import opened Seqs
  import opened Model
  import opened Authorization
  import opened Invariants
  import Blogs

  datatype NewCategory = NewCategory(name: string, description: Option<string>, color: Option<string>)

  datatype CategoryPatch = CategoryPatch(
    name: Option<string>,
    description: Option<string>,
    color: Option<string>,
    isActive: Option<bool>)

  /** A category as listed, with the number of published blogs in it. */
  datatype CategoryView = CategoryView(id: CategoryId, category: Category, blogCount: nat)

  const DefaultColor := "#3B82F6"

  /** `Category.findOne({ name })` finds something. */
  predicate NameTaken(st: Store, name: string) {
    exists k :: k in st.categories && st.categories[k].name == name
  }

  /** POST /api/categories: 400 if the name is already used; otherwise a new category, blue unless a color is given. */
  function CreateCategory(st: Store, caller: Caller, req: NewCategory, newId: CategoryId, activeByDefault: bool): (o: Outcome<CategoryId>)
    requires CanManageCategories(caller.role)
    requires newId !in st.categories
    ensures NameTaken(st, req.name) ==> o == Fail(st, BadRequest)
    ensures !NameTaken(st, req.name) ==>
              && o.code == Created && o.data == Some(newId)
              && o.store.categories.Keys == st.categories.Keys + {newId}
              && o.store.categories[newId].name == req.name
              && o.store.categories[newId].description == req.description
              && (req.color.Some? && req.color.value != "" ==> o.store.categories[newId].color == req.color.value)
              && (req.color.None? || req.color.value == "" ==> o.store.categories[newId].color == DefaultColor)
              && o.store.categories[newId].isActive == activeByDefault
              && (forall k :: k in st.categories ==> o.store.categories[k] == st.categories[k])
              && o.store.(categories := st.categories) == st
  {
    if NameTaken(st, req.name) then Fail(st, BadRequest)
    else
      var color := if req.color.Some? && req.color.value != "" then req.color.value else DefaultColor;
      var c := Category(req.name, req.description, color, activeByDefault);
      Outcome(Created, st.(categories := st.categories[newId := c]), Some(newId))
  }

  /** The blogs naming the category, whatever their status. */
  ghost function BlogsIn(st: Store, id: CategoryId): set<BlogId> {
    set b | b in st.blogs && st.blogs[b].category == id
  }

  /** The published blogs naming the category. */
  ghost function PublishedIn(st: Store, id: CategoryId): set<BlogId> {
    set b | b in st.blogs && st.blogs[b].category == id && st.blogs[b].status == Published
  }

  /**
   * `Blog.countDocuments({ category: id, status: 'published' })`. The first clause ties the
   * count to its definition, `PublishedIn`; `CreateBlogCounts` says how it moves.
   */
  function PublishedCount(st: Store, id: CategoryId): (n: nat)
    ensures n == |PublishedIn(st, id)|
    ensures n <= |BlogsIn(st, id)|
    ensures n == 0 <==> forall b :: b in st.blogs && st.blogs[b].category == id ==> st.blogs[b].status != Published
  {
    var published := set b | b in st.blogs && st.blogs[b].category == id && st.blogs[b].status == Published;
    assert published == PublishedIn(st, id);
    assert published <= BlogsIn(st, id);
    SubsetCard(published, BlogsIn(st, id));
    assert (forall b :: b in st.blogs && st.blogs[b].category == id ==> st.blogs[b].status != Published)
           <==> published == {} by {
      if published != {} {
        var b :| b in published;
      } else {
        forall b | b in st.blogs && st.blogs[b].category == id
          ensures st.blogs[b].status != Published
        {
          assert b !in published;
        }
      }
    }
    |published|
  }

  /**
   * `Blog.countDocuments({ category: id })`. The first clause ties the count to its
   * definition, `BlogsIn`; `CreateBlogCounts` says how it moves.
   */
  function BlogCount(st: Store, id: CategoryId): (n: nat)
    ensures n == |BlogsIn(st, id)|
    ensures PublishedCount(st, id) <= n
    ensures n > 0 <==> exists b :: b in st.blogs && st.blogs[b].category == id
  {
    var all := set b | b in st.blogs && st.blogs[b].category == id;
    assert all == BlogsIn(st, id);
    assert (exists b :: b in st.blogs && st.blogs[b].category == id) <==> all != {} by {
      if all != {} {
        var b :| b in all;
      }
      if exists b :: b in st.blogs && st.blogs[b].category == id {
        var b :| b in st.blogs && st.blogs[b].category == id;
        assert b in all;
      }
    }
    |all|
  }

  lemma SubsetCard(a: set<BlogId>, b: set<BlogId>)
    requires a <= b
    ensures |a| <= |b|
  {
    assert b == a + (b - a);
  }

  /** Sorting on name: `a` is strictly before `b` in character order. */
  predicate NameBefore(a: string, b: string) {
    if a == [] then b != []
    else if b == [] then false
    else a[0] < b[0] || (a[0] == b[0] && NameBefore(a[1..], b[1..]))
  }

  /** The ascending name order on category ids. */
  ghost function ByNameOrder(st: Store): (CategoryId, CategoryId) -> bool {
    (a, b) => a in st.categories && b in st.categories &&
              (st.categories[a].name == st.categories[b].name || NameBefore(st.categories[a].name, st.categories[b].name))
  }

  function IsActiveCategory(st: Store): CategoryId -> bool {
    id => id in st.categories && st.categories[id].isActive
  }

  function Views(st: Store, ids: seq<CategoryId>): (r: seq<CategoryView>)
    requires forall id :: id in ids ==> id in st.categories
    ensures |r| == |ids|
    ensures forall i :: 0 <= i < |r| ==> r[i] == CategoryView(ids[i], st.categories[ids[i]], PublishedCount(st, ids[i]))
  {
    if ids == [] then []
    else [CategoryView(ids[0], st.categories[ids[0]], PublishedCount(st, ids[0]))] + Views(st, ids[1..])
  }

  /**
   * GET /api/categories: the active categories in ascending name order, each with its
   * published-blog count. `byName` lists every category once, as the database sorts them.
   */
  function GetCategories(st: Store, byName: seq<CategoryId>): (o: Outcome<seq<CategoryView>>)
    requires Enumerates(byName, st.categories.Keys)
    requires Ordered(byName, ByNameOrder(st))
    ensures o.code == OK && o.store == st && o.data.Some?
    ensures forall v :: v in o.data.value ==>
              && v.id in st.categories && v.category == st.categories[v.id] && v.category.isActive
              && v.blogCount == PublishedCount(st, v.id)
    ensures forall id :: id in st.categories && st.categories[id].isActive ==>
              exists i :: 0 <= i < |o.data.value| && o.data.value[i].id == id
    ensures forall i, j :: 0 <= i < j < |o.data.value| ==>
              o.data.value[i].id != o.data.value[j].id
              && (o.data.value[i].category.name == o.data.value[j].category.name
                  || NameBefore(o.data.value[i].category.name, o.data.value[j].category.name))
  {
    ActiveListing(st, byName);
    Outcome(OK, st, Some(Views(st, Filter(byName, IsActiveCategory(st)))))
  }

  lemma ActiveListing(st: Store, byName: seq<CategoryId>)
    requires Enumerates(byName, st.categories.Keys)
    requires Ordered(byName, ByNameOrder(st))
    ensures var views := Views(st, Filter(byName, IsActiveCategory(st)));
            && (forall v :: v in views ==>
                  && v.id in st.categories && v.category == st.categories[v.id] && v.category.isActive
                  && v.blogCount == PublishedCount(st, v.id))
            && (forall id :: id in st.categories && st.categories[id].isActive ==>
                  exists i :: 0 <= i < |views| && views[i].id == id)
            && (forall i, j :: 0 <= i < j < |views| ==>
                  views[i].id != views[j].id
                  && (views[i].category.name == views[j].category.name
                      || NameBefore(views[i].category.name, views[j].category.name)))
  {
    var active := Filter(byName, IsActiveCategory(st));
    FilterOrdered(byName, IsActiveCategory(st), ByNameOrder(st));
    ActiveViews(st, active);
    // Equating the two calls lets the existential witnesses of ActiveViews carry over.
    assert Views(st, active) == Views(st, Filter(byName, IsActiveCategory(st)));
  }

  /** The views of a name-ordered, duplicate-free list of active ids. */
  lemma ActiveViews(st: Store, active: seq<CategoryId>)
    requires NoDup(active) && Ordered(active, ByNameOrder(st))
    requires forall id :: id in active <==> id in st.categories && st.categories[id].isActive
    ensures var views := Views(st, active);
            && (forall v :: v in views ==>
                  && v.id in st.categories && v.category == st.categories[v.id] && v.category.isActive
                  && v.blogCount == PublishedCount(st, v.id))
            && (forall id :: id in st.categories && st.categories[id].isActive ==>
                  exists i :: 0 <= i < |views| && views[i].id == id)
            && (forall i, j :: 0 <= i < j < |views| ==>
                  views[i].id != views[j].id
                  && (views[i].category.name == views[j].category.name
                      || NameBefore(views[i].category.name, views[j].category.name)))
  {
    ActiveViewsSound(st, active);
    ActiveViewsComplete(st, active);
    ActiveViewsSorted(st, active);
  }

  lemma ActiveViewsSound(st: Store, active: seq<CategoryId>)
    requires forall id :: id in active ==> id in st.categories && st.categories[id].isActive
    ensures forall v :: v in Views(st, active) ==>
              && v.id in st.categories && v.category == st.categories[v.id] && v.category.isActive
              && v.blogCount == PublishedCount(st, v.id)
  {
    var views := Views(st, active);
    assert |views| == |active|;
    forall v | v in views
      ensures v.id in st.categories && v.category == st.categories[v.id] && v.category.isActive
      ensures v.blogCount == PublishedCount(st, v.id)
    {
      var i :| 0 <= i < |views| && views[i] == v;
      assert active[i] in active;
      assert views[i] == CategoryView(active[i], st.categories[active[i]], PublishedCount(st, active[i]));
    }
    assert views == Views(st, active);
  }

  lemma ActiveViewsComplete(st: Store, active: seq<CategoryId>)
    requires forall id :: id in active <==> id in st.categories && st.categories[id].isActive
    ensures var views := Views(st, active);
            forall id :: id in st.categories && st.categories[id].isActive ==>
              exists i :: 0 <= i < |views| && views[i].id == id
  {
    var views := Views(st, active);
    forall id | id in st.categories && st.categories[id].isActive
      ensures exists i :: 0 <= i < |views| && views[i].id == id
    {
      assert id in active;
      var k :| 0 <= k < |active| && active[k] == id;
      assert views[k].id == id;
    }
    assert views == Views(st, active);
  }

  lemma ActiveViewsSorted(st: Store, active: seq<CategoryId>)
    requires NoDup(active) && Ordered(active, ByNameOrder(st))
    requires forall id :: id in active ==> id in st.categories
    ensures var views := Views(st, active);
            forall i, j :: 0 <= i < j < |views| ==>
              views[i].id != views[j].id
              && (views[i].category.name == views[j].category.name
                  || NameBefore(views[i].category.name, views[j].category.name))
  {
    var views := Views(st, active);
    assert |views| == |active|;
    forall i, j | 0 <= i < j < |views|
      ensures views[i].id != views[j].id
      ensures views[i].category.name == views[j].category.name
              || NameBefore(views[i].category.name, views[j].category.name)
    {
      assert views[i] == CategoryView(active[i], st.categories[active[i]], PublishedCount(st, active[i]));
      assert views[j] == CategoryView(active[j], st.categories[active[j]], PublishedCount(st, active[j]));
      assert ByNameOrder(st)(active[i], active[j]);
    }
    assert views == Views(st, active);
  }

  /** GET /api/categories/:id: 404, or the category with its published-blog count. */
  function GetCategoryById(st: Store, id: CategoryId): (o: Outcome<CategoryView>)
    ensures id !in st.categories ==> o == Fail(st, NotFound)
    ensures id in st.categories ==>
              o.code == OK && o.store == st && o.data == Some(CategoryView(id, st.categories[id], PublishedCount(st, id)))
  {
    if id !in st.categories then Fail(st, NotFound)
    else Outcome(OK, st, Some(CategoryView(id, st.categories[id], PublishedCount(st, id))))
  }

  /** The update asks for a different, non-empty name. */
  predicate Renames(patch: CategoryPatch, c: Category) {
    patch.name.Some? && patch.name.value != "" && patch.name.value != c.name
  }

  /**
   * PUT /api/categories/:id: 404, then 400 when renaming to a name another category holds
   * (keeping the same name skips the check); otherwise the supplied fields apply.
   */
  function UpdateCategory(st: Store, caller: Caller, id: CategoryId, patch: CategoryPatch): (o: Outcome<Category>)
    requires CanManageCategories(caller.role)
    ensures id !in st.categories ==> o == Fail(st, NotFound)
    ensures id in st.categories && Renames(patch, st.categories[id]) && NameTaken(st, patch.name.value) ==>
              o == Fail(st, BadRequest)
    ensures id in st.categories && !(Renames(patch, st.categories[id]) && NameTaken(st, patch.name.value)) ==>
              && o.code == OK && o.store.categories.Keys == st.categories.Keys
              && o.data == Some(o.store.categories[id])
              && var c, c' := st.categories[id], o.store.categories[id];
              && (Renames(patch, c) ==> c'.name == patch.name.value)
              && (!Renames(patch, c) ==> c'.name == c.name)
              && c'.description == (if patch.description.Some? then patch.description else c.description)
              && c'.color == patch.color.GetOr(c.color)
              && c'.isActive == patch.isActive.GetOr(c.isActive)
              && (forall k :: k in st.categories && k != id ==> o.store.categories[k] == st.categories[k])
              && o.store.(categories := st.categories) == st
  {
    if id !in st.categories then Fail(st, NotFound)
    else
      var c := st.categories[id];
      if Renames(patch, c) && NameTaken(st, patch.name.value) then Fail(st, BadRequest)
      else
        var c' := c.(
          name := if Renames(patch, c) then patch.name.value else c.name,
          description := if patch.description.Some? then patch.description else c.description,
          color := patch.color.GetOr(c.color),
          isActive := patch.isActive.GetOr(c.isActive));
        Outcome(OK, st.(categories := st.categories[id := c']), Some(c'))
  }

  /** DELETE /api/categories/:id: 404, then 400 while any blog of any status names it; otherwise only the category goes. */
  function DeleteCategory(st: Store, caller: Caller, id: CategoryId): (o: Outcome<()>)
    requires CanManageCategories(caller.role)
    ensures id !in st.categories ==> o == Fail(st, NotFound)
    ensures id in st.categories && (exists b :: b in st.blogs && st.blogs[b].category == id) ==>
              o == Fail(st, BadRequest) && id in o.store.categories
    ensures id in st.categories && !(exists b :: b in st.blogs && st.blogs[b].category == id) ==>
              && o.code == OK
              && o.store.categories.Keys == st.categories.Keys - {id}
              && (forall k :: k in o.store.categories ==> o.store.categories[k] == st.categories[k])
              && o.store.(categories := st.categories) == st
  {
    if id !in st.categories then Fail(st, NotFound)
    else if BlogCount(st, id) > 0 then Fail(st, BadRequest)
    else Outcome(OK, st.(categories := st.categories - {id}), None)
  }

  /** A missing category is a 400 when creating a blog, but a 404 for the category endpoints. */
  lemma MissingCategoryCodes(st: Store, caller: Caller, req: Blogs.NewBlog, newId: BlogId, patch: CategoryPatch)
    requires caller.role == Admin
    requires req.category !in st.categories && newId !in st.blogs
    ensures Blogs.CreateBlog(st, caller, req, newId).code == BadRequest
    ensures GetCategoryById(st, req.category).code == NotFound
    ensures UpdateCategory(st, caller, req.category, patch).code == NotFound
    ensures DeleteCategory(st, caller, req.category).code == NotFound
  {
  }

  /** The single-category endpoint shows an active category exactly as the listing does. */
  lemma ListingAgreesWithById(st: Store, byName: seq<CategoryId>)
    requires Enumerates(byName, st.categories.Keys)
    requires Ordered(byName, ByNameOrder(st))
    ensures forall v :: v in GetCategories(st, byName).data.value ==> GetCategoryById(st, v.id).data == Some(v)
    ensures forall id :: id in st.categories && st.categories[id].isActive ==>
              GetCategoryById(st, id).data.value in GetCategories(st, byName).data.value
  {
    var views := GetCategories(st, byName).data.value;
    forall id | id in st.categories && st.categories[id].isActive
      ensures GetCategoryById(st, id).data.value in views
    {
      var i :| 0 <= i < |views| && views[i].id == id;
      assert views[i] == GetCategoryById(st, id).data.value;
    }
  }

  /**
   * Creating a published blog raises its category's published count by exactly one and
   * its blog count by one; a draft only raises the blog count; other categories keep both.
   */
  lemma CreateBlogCounts(st: Store, caller: Caller, req: Blogs.NewBlog, newId: BlogId, c: CategoryId)
    requires CanWriteBlogs(caller.role) && newId !in st.blogs && req.category in st.categories
    ensures var s := Blogs.CreateBlog(st, caller, req, newId).store;
            && PublishedCount(s, c) == PublishedCount(st, c) + (if c == req.category && req.status == Some(Published) then 1 else 0)
            && BlogCount(s, c) == BlogCount(st, c) + (if c == req.category then 1 else 0)
  {
    var s := Blogs.CreateBlog(st, caller, req, newId).store;
    var b := s.blogs[newId];
    assert b.category == req.category && b.status == req.status.GetOr(Draft);
    AddedBlogCounts(st, s, newId, c);
  }

  /** Adding one blog to the store changes the counts of its own category only. */
  lemma AddedBlogCounts(st: Store, s: Store, newId: BlogId, c: CategoryId)
    requires newId !in st.blogs && s.blogs.Keys == st.blogs.Keys + {newId}
    requires forall id :: id in st.blogs ==> s.blogs[id] == st.blogs[id]
    ensures PublishedCount(s, c) == PublishedCount(st, c) + (if s.blogs[newId].category == c && s.blogs[newId].status == Published then 1 else 0)
    ensures BlogCount(s, c) == BlogCount(st, c) + (if s.blogs[newId].category == c then 1 else 0)
  {
    AddedBlogSets(st, s, newId, c);
    assert PublishedCount(s, c) == |PublishedIn(s, c)| && PublishedCount(st, c) == |PublishedIn(st, c)|;
    assert BlogCount(s, c) == |BlogsIn(s, c)| && BlogCount(st, c) == |BlogsIn(st, c)|;
  }

  lemma AddedBlogSets(st: Store, s: Store, newId: BlogId, c: CategoryId)
    requires newId !in st.blogs && s.blogs.Keys == st.blogs.Keys + {newId}
    requires forall id :: id in st.blogs ==> s.blogs[id] == st.blogs[id]
    ensures newId !in PublishedIn(st, c) && newId !in BlogsIn(st, c)
    ensures PublishedIn(s, c) == PublishedIn(st, c) + (if s.blogs[newId].category == c && s.blogs[newId].status == Published then {newId} else {})
    ensures BlogsIn(s, c) == BlogsIn(st, c) + (if s.blogs[newId].category == c then {newId} else {})
  {
  }

  lemma CreateCategoryPreservesValid(st: Store, caller: Caller, req: NewCategory, newId: CategoryId, activeByDefault: bool)
    requires Valid(st) && CanManageCategories(caller.role) && newId !in st.categories
    ensures Valid(CreateCategory(st, caller, req, newId, activeByDefault).store)
  {
    var o := CreateCategory(st, caller, req, newId, activeByDefault);
    if o.code == Created {
      var s := o.store;
      assert UniqueCategoryNames(s) by {
        forall a, b | a in s.categories && b in s.categories && a != b
          ensures s.categories[a].name != s.categories[b].name
        {
          if a == newId {
            assert s.categories[b] == st.categories[b];
          } else if b == newId {
            assert s.categories[a] == st.categories[a];
          }
        }
      }
      CategoryChangeKeepsValid(st, s);
    }
  }

  /** Renaming checks the new name against every category, so names stay unique; other fields do not matter. */
  lemma UpdateCategoryPreservesValid(st: Store, caller: Caller, id: CategoryId, patch: CategoryPatch)
    requires Valid(st) && CanManageCategories(caller.role)
    ensures Valid(UpdateCategory(st, caller, id, patch).store)
  {
    var o := UpdateCategory(st, caller, id, patch);
    if o.code == OK {
      var s := o.store;
      assert UniqueCategoryNames(s) by {
        forall a, b | a in s.categories && b in s.categories && a != b
          ensures s.categories[a].name != s.categories[b].name
        {
          if a == id && Renames(patch, st.categories[id]) {
            assert st.categories[b].name != patch.name.value;
          } else if b == id && Renames(patch, st.categories[id]) {
            assert st.categories[a].name != patch.name.value;
          }
        }
      }
      assert CategoriesResolve(s);
      CategoryChangeKeepsValid(st, s);
    }
  }

  /** The referential guard keeps every blog's category resolvable. */
  lemma DeleteCategoryPreservesValid(st: Store, caller: Caller, id: CategoryId)
    requires Valid(st) && CanManageCategories(caller.role)
    ensures Valid(DeleteCategory(st, caller, id).store)
  {
    var o := DeleteCategory(st, caller, id);
    if o.code == OK {
      var s := o.store;
      assert forall b :: b in st.blogs ==> st.blogs[b].category != id;
      assert UniqueCategoryNames(s);
      assert CategoriesResolve(s);
      CategoryChangeKeepsValid(st, s);
    }
  }
}

=== FILE: comments.dfy ===
/**
 * The comment handlers over the two-level tree: a comment hangs either off its blog's
 * `comments` list (top level) or off its parent's `replies` list. Creation appends,
 * deletion detaches and, for a top-level comment, cascades to its direct replies.
 */
module Comments {
  import opened Wrappers
  import opened Seqs
  import opened Pagination
  import opened Model
  import opened Authorization
  import opened Invariants

  datatype NewComment = NewComment(content: string, blog: BlogId, parentComment: Option<CommentId>)

  datatype CommentPatch = CommentPatch(content: Option<string>, isApproved: Option<bool>)

  datatype PageQuery = PageQuery(page: Option<nat>, limit: Option<nat>)

  /** A top-level comment as listed, with its approved replies. */
  datatype Thread = Thread(id: CommentId, replies: seq<CommentId>)

  /** The payload of a comment like toggle. */
  datatype CommentLikeState = CommentLikeState(isLiked: bool, likeCount: nat)

  /**
   * POST /api/comments: 404 for a missing blog, then 404 for a named parent that does not
   * exist; otherwise the comment is stored and its id appended to the parent's `replies`
   * or, without a parent, to the blog's `comments`. `approvedByDefault` is the schema
   * default of `isApproved`.
   */
  function CreateComment(st: Store, caller: Caller, req: NewComment, newId: CommentId, approvedByDefault: bool): (o: Outcome<CommentId>)
    requires newId !in st.comments
    ensures req.blog !in st.blogs ==> o == Fail(st, NotFound)
    ensures req.blog in st.blogs && req.parentComment.Some? && req.parentComment.value !in st.comments ==> o == Fail(st, NotFound)
    ensures o.code == Created <==> req.blog in st.blogs && (req.parentComment.Some? ==> req.parentComment.value in st.comments)
    ensures o.code == Created ==>
              && o.data == Some(newId)
              && o.store.comments.Keys == st.comments.Keys + {newId}
              && o.store.comments[newId] == Comment(req.content, caller.id, req.blog, req.parentComment, [], approvedByDefault, [])
              && o.store.categories == st.categories && o.store.likes == st.likes
    ensures o.code == Created && req.parentComment.Some? ==>
              && var p := req.parentComment.value;
              && o.store.comments[p].replies == st.comments[p].replies + [newId]
              && o.store.comments[p].(replies := st.comments[p].replies) == st.comments[p]
              && (forall c :: c in st.comments && c != p ==> o.store.comments[c] == st.comments[c])
              && o.store.blogs == st.blogs
    ensures o.code == Created && req.parentComment.None? ==>
              && o.store.blogs.Keys == st.blogs.Keys
              && o.store.blogs[req.blog].comments == st.blogs[req.blog].comments + [newId]
              && o.store.blogs[req.blog].(comments := st.blogs[req.blog].comments) == st.blogs[req.blog]
              && (forall b :: b in st.blogs && b != req.blog ==> o.store.blogs[b] == st.blogs[b])
              && (forall c :: c in st.comments ==> o.store.comments[c] == st.comments[c])
  {
    if req.blog !in st.blogs then Fail(st, NotFound)
    else if req.parentComment.Some? && req.parentComment.value !in st.comments then Fail(st, NotFound)
    else
      var c := Comment(req.content, caller.id, req.blog, req.parentComment, [], approvedByDefault, []);
      var comments := st.comments[newId := c];
      match req.parentComment
      case Some(p) =>
        var parent := st.comments[p];
        Outcome(Created, st.(comments := comments[p := parent.(replies := parent.replies + [newId])]), Some(newId))
      case None =>
        var b := st.blogs[req.blog];
        Outcome(Created, st.(blogs := st.blogs[req.blog := b.(comments := b.comments + [newId])], comments := comments), Some(newId))
  }

  /** Nothing ties a reply to its parent's blog: a reply on one blog may hang under a comment of another. */
  lemma ReplyMayCrossBlogs()
    ensures var b := Blog("t", "c", None, 1, 1, [], "", Published, true, 0, [], [10]);
            var st := Store(map[1 := b, 2 := b.(comments := [])],
                            map[10 := Comment("c", 1, 1, None, [], true, [])], map[], map[]);
            var o := CreateComment(st, Caller(1, Reader), NewComment("r", 2, Some(10)), 11, true);
            o.code == Created && o.store.comments[11].blog != o.store.comments[10].blog
  {
  }

  /** Nothing stops a reply to a reply: the tree may grow deeper than two levels. */
  lemma ReplyToReplyAccepted()
    ensures var b := Blog("t", "c", None, 1, 1, [], "", Published, true, 0, [], [10]);
            var st := Store(map[1 := b],
                            map[10 := Comment("c", 1, 1, None, [11], true, []),
                                11 := Comment("r", 1, 1, Some(10), [], true, [])], map[], map[]);
            var o := CreateComment(st, Caller(1, Reader), NewComment("rr", 1, Some(11)), 12, true);
            o.code == Created && o.store.comments[12].parentComment == Some(11)
            && o.store.comments[11].parentComment.Some?
  {
  }

  /** The listing's selection: approved top-level comments of the blog. */
  function IsThreadHead(st: Store, blog: BlogId): CommentId -> bool {
    id => id in st.comments && st.comments[id].blog == blog && st.comments[id].parentComment.None? && st.comments[id].isApproved
  }

  /** The populate step: the listed replies that still exist and are approved, in list order. */
  function IsApprovedComment(st: Store): CommentId -> bool {
    id => id in st.comments && st.comments[id].isApproved
  }

  /** One listed comment with its approved replies, in list order. */
  function ThreadOf(st: Store, id: CommentId): (t: Thread)
    requires id in st.comments
    ensures t.id == id
    ensures forall r :: r in t.replies <==> r in st.comments[id].replies && r in st.comments && st.comments[r].isApproved
    ensures Ordered(t.replies, Precedes(st.comments[id].replies))
  {
    FilterKeepsOrder(st.comments[id].replies, IsApprovedComment(st));
    Thread(id, Filter(st.comments[id].replies, IsApprovedComment(st)))
  }

  function Threads(st: Store, ids: seq<CommentId>): (r: seq<Thread>)
    requires forall id :: id in ids ==> id in st.comments
    ensures |r| == |ids|
    ensures forall i :: 0 <= i < |r| ==> r[i] == ThreadOf(st, ids[i])
  {
    if ids == [] then []
    else [ThreadOf(st, ids[0])] + Threads(st, ids[1..])
  }

  /** Listing thread heads gives, for each, its approved replies that still exist. */
  lemma ThreadsOfHeads(st: Store, blog: BlogId, ids: seq<CommentId>)
    requires forall id :: id in ids ==>
               id in st.comments && st.comments[id].blog == blog && st.comments[id].parentComment.None? && st.comments[id].isApproved
    ensures forall t :: t in Threads(st, ids) ==>
              && t.id in st.comments
              && st.comments[t.id].blog == blog && st.comments[t.id].parentComment.None? && st.comments[t.id].isApproved
              && (forall r :: r in t.replies <==> r in st.comments[t.id].replies && r in st.comments && st.comments[r].isApproved)
  {
    var threads := Threads(st, ids);
    forall t | t in threads
      ensures t.id in st.comments
      ensures st.comments[t.id].blog == blog && st.comments[t.id].parentComment.None? && st.comments[t.id].isApproved
      ensures forall r :: r in t.replies <==> r in st.comments[t.id].replies && r in st.comments && st.comments[r].isApproved
    {
      var i :| 0 <= i < |threads| && threads[i] == t;
      assert ids[i] in ids;
    }
  }

  /** One page of the thread heads of `blog`, newest first, each with its approved replies. */
  function ThreadPage(st: Store, blog: BlogId, newestFirst: seq<CommentId>, page: nat, limit: nat): (p: PageOf<Thread>)
    requires Enumerates(newestFirst, st.comments.Keys)
    requires page >= 1 && limit >= 1
    ensures p.page == page && p.limit == limit && |p.items| <= limit
    ensures var heads := Filter(newestFirst, IsThreadHead(st, blog));
            && (|p.items| == limit || Skip(page, limit) + |p.items| >= |heads|)
            && (forall i :: 0 <= i < |p.items| ==> Skip(page, limit) + i < |heads| && p.items[i] == ThreadOf(st, heads[Skip(page, limit) + i]))
    ensures forall i, j :: 0 <= i < j < |p.items| ==> Precedes(newestFirst)(p.items[i].id, p.items[j].id)
    ensures p.total == |Satisfying(st.comments.Keys, IsThreadHead(st, blog))|
    ensures p.pages == PageCount(p.total, limit)
  {
    var heads := Filter(newestFirst, IsThreadHead(st, blog));
    FilterCount(newestFirst, st.comments.Keys, IsThreadHead(st, blog));
    FilterKeepsOrder(newestFirst, IsThreadHead(st, blog));
    var w := Paginate(heads, page, limit);
    var threads := Threads(st, w.items);
    forall i, j | 0 <= i < j < |threads| ensures Precedes(newestFirst)(threads[i].id, threads[j].id) {
      assert threads[i].id == heads[Skip(page, limit) + i] && threads[j].id == heads[Skip(page, limit) + j];
    }
    PageOf(threads, w.page, w.limit, w.total, w.pages)
  }

  /**
   * GET /api/comments/blog/:blogId: approved top-level comments of the blog, newest first,
   * 20 per page by default, each with its approved replies. A missing blog gives an empty page.
   */
  function GetCommentsByBlog(st: Store, blog: BlogId, q: PageQuery, newestFirst: seq<CommentId>): (o: Outcome<PageOf<Thread>>)
    requires Enumerates(newestFirst, st.comments.Keys)
    ensures o.code == OK && o.store == st && o.data.Some?
    ensures q.page.None? ==> o.data.value.page == 1
    ensures q.page.Some? && q.page.value >= 1 ==> o.data.value.page == q.page.value
    ensures q.limit.None? ==> o.data.value.limit == 20
    ensures q.limit.Some? && q.limit.value >= 1 ==> o.data.value.limit == q.limit.value
    ensures o.data.value.page == ParsedOr(q.page, 1) && o.data.value.limit == ParsedOr(q.limit, 20)
    ensures o.data.value.page >= 1 && o.data.value.limit >= 1 && |o.data.value.items| <= o.data.value.limit
    ensures forall t :: t in o.data.value.items ==>
              && t.id in st.comments
              && st.comments[t.id].blog == blog && st.comments[t.id].parentComment.None? && st.comments[t.id].isApproved
              && (forall r :: r in t.replies <==> r in st.comments[t.id].replies && r in st.comments && st.comments[r].isApproved)
              && Ordered(t.replies, Precedes(st.comments[t.id].replies))
    ensures o.data.value.total == |Satisfying(st.comments.Keys, IsThreadHead(st, blog))|
    ensures o.data.value.pages == PageCount(o.data.value.total, o.data.value.limit)
  {
    var page, limit := ParsedOr(q.page, 1), ParsedOr(q.limit, 20);
    var p := ThreadPage(st, blog, newestFirst, page, limit);
    ThreadPageHeads(st, blog, newestFirst, page, limit);
    Outcome(OK, st, Some(p))
  }

  /**
   * The endpoint's page is the requested window of the blog's thread heads taken newest
   * first: full unless the heads run out, and in that order.
   */
  lemma CommentsPageIsWindow(st: Store, blog: BlogId, q: PageQuery, newestFirst: seq<CommentId>)
    requires Enumerates(newestFirst, st.comments.Keys)
    ensures var p, heads := GetCommentsByBlog(st, blog, q, newestFirst).data.value, Filter(newestFirst, IsThreadHead(st, blog));
            var limit := ParsedOr(q.limit, 20);
            var skip := Skip(ParsedOr(q.page, 1), limit);
            && (|p.items| == limit || skip + |p.items| >= |heads|)
            && (forall i :: 0 <= i < |p.items| ==> skip + i < |heads| && p.items[i] == ThreadOf(st, heads[skip + i]))
            && (forall i, j :: 0 <= i < j < |p.items| ==> Precedes(newestFirst)(p.items[i].id, p.items[j].id))
  {
    CommentsPageIsThreadPage(st, blog, q, newestFirst);
  }

  lemma CommentsPageIsThreadPage(st: Store, blog: BlogId, q: PageQuery, newestFirst: seq<CommentId>)
    requires Enumerates(newestFirst, st.comments.Keys)
    ensures GetCommentsByBlog(st, blog, q, newestFirst).data.value == ThreadPage(st, blog, newestFirst, ParsedOr(q.page, 1), ParsedOr(q.limit, 20))
  {
  }

  /** Every thread on a page is an approved top-level comment of the blog with its approved replies in list order. */
  lemma ThreadPageHeads(st: Store, blog: BlogId, newestFirst: seq<CommentId>, page: nat, limit: nat)
    requires Enumerates(newestFirst, st.comments.Keys)
    requires page >= 1 && limit >= 1
    ensures forall t :: t in ThreadPage(st, blog, newestFirst, page, limit).items ==>
              && t.id in st.comments
              && st.comments[t.id].blog == blog && st.comments[t.id].parentComment.None? && st.comments[t.id].isApproved
              && (forall r :: r in t.replies <==> r in st.comments[t.id].replies && r in st.comments && st.comments[r].isApproved)
              && Ordered(t.replies, Precedes(st.comments[t.id].replies))
  {
    var heads := Filter(newestFirst, IsThreadHead(st, blog));
    var items := ThreadPage(st, blog, newestFirst, page, limit).items;
    forall t | t in items
      ensures t.id in st.comments
      ensures st.comments[t.id].blog == blog && st.comments[t.id].parentComment.None? && st.comments[t.id].isApproved
      ensures forall r :: r in t.replies <==> r in st.comments[t.id].replies && r in st.comments && st.comments[r].isApproved
      ensures Ordered(t.replies, Precedes(st.comments[t.id].replies))
    {
      var i :| 0 <= i < |items| && items[i] == t;
      var h := heads[Skip(page, limit) + i];
      assert h in heads;
      assert t == ThreadOf(st, h);
    }
  }

  /** Every approved top-level comment of the blog is on exactly one of the pages 1 .. pages. */
  lemma ThreadPagesCoverEveryHead(st: Store, blog: BlogId, newestFirst: seq<CommentId>, limit: nat, c: CommentId)
    requires Enumerates(newestFirst, st.comments.Keys)
    requires limit >= 1
    requires c in st.comments && st.comments[c].blog == blog && st.comments[c].parentComment.None? && st.comments[c].isApproved
    ensures exists page :: 1 <= page <= ThreadPage(st, blog, newestFirst, 1, limit).pages
              && ThreadOf(st, c) in ThreadPage(st, blog, newestFirst, page, limit).items
    ensures forall p, q :: 1 <= p < q && ThreadOf(st, c) in ThreadPage(st, blog, newestFirst, p, limit).items ==>
              ThreadOf(st, c) !in ThreadPage(st, blog, newestFirst, q, limit).items
  {
    var heads := Filter(newestFirst, IsThreadHead(st, blog));
    assert c in heads;
    var i :| 0 <= i < |heads| && heads[i] == c;
    WindowCovers(heads, limit, i);
    var page := i / limit + 1;
    ThreadPageIsWindow(st, blog, newestFirst, 1, limit);
    HeadOnPage(st, blog, newestFirst, page, limit, c);
    forall p, q | 1 <= p < q && ThreadOf(st, c) in ThreadPage(st, blog, newestFirst, p, limit).items
      ensures ThreadOf(st, c) !in ThreadPage(st, blog, newestFirst, q, limit).items
    {
      HeadOnPage(st, blog, newestFirst, p, limit, c);
      HeadOnPage(st, blog, newestFirst, q, limit, c);
      WindowsDisjoint(heads, limit, p, q, c);
    }
  }

  /** Through the endpoint: every approved top-level comment of a blog is listed on some page within `pages`. */
  lemma EveryThreadListed(st: Store, blog: BlogId, newestFirst: seq<CommentId>, limit: Option<nat>, c: CommentId)
    requires Enumerates(newestFirst, st.comments.Keys)
    requires c in st.comments && st.comments[c].blog == blog && st.comments[c].parentComment.None? && st.comments[c].isApproved
    ensures exists page :: 1 <= page <= GetCommentsByBlog(st, blog, PageQuery(None, limit), newestFirst).data.value.pages
              && ThreadOf(st, c) in GetCommentsByBlog(st, blog, PageQuery(Some(page), limit), newestFirst).data.value.items
  {
    var lim := ParsedOr(limit, 20);
    ThreadPagesCoverEveryHead(st, blog, newestFirst, lim, c);
    var page :| 1 <= page <= ThreadPage(st, blog, newestFirst, 1, lim).pages
             && ThreadOf(st, c) in ThreadPage(st, blog, newestFirst, page, lim).items;
    ListedThroughEndpoint(st, blog, newestFirst, limit, c, page);
  }

  lemma ListedThroughEndpoint(st: Store, blog: BlogId, newestFirst: seq<CommentId>, limit: Option<nat>, c: CommentId, page: nat)
    requires Enumerates(newestFirst, st.comments.Keys)
    requires c in st.comments && page >= 1
    requires page <= ThreadPage(st, blog, newestFirst, 1, ParsedOr(limit, 20)).pages
    requires ThreadOf(st, c) in ThreadPage(st, blog, newestFirst, page, ParsedOr(limit, 20)).items
    ensures page <= GetCommentsByBlog(st, blog, PageQuery(None, limit), newestFirst).data.value.pages
    ensures ThreadOf(st, c) in GetCommentsByBlog(st, blog, PageQuery(Some(page), limit), newestFirst).data.value.items
  {
    CommentsPageIsThreadPage(st, blog, PageQuery(Some(page), limit), newestFirst);
    CommentsPageIsThreadPage(st, blog, PageQuery(None, limit), newestFirst);
  }

  /** A comment's thread is on a page exactly when the comment is in that window of the heads. */
  lemma HeadOnPage(st: Store, blog: BlogId, newestFirst: seq<CommentId>, page: nat, limit: nat, c: CommentId)
    requires Enumerates(newestFirst, st.comments.Keys)
    requires page >= 1 && limit >= 1 && c in st.comments
    ensures ThreadOf(st, c) in ThreadPage(st, blog, newestFirst, page, limit).items <==>
            c in Window(Filter(newestFirst, IsThreadHead(st, blog)), page, limit)
  {
    var w := Window(Filter(newestFirst, IsThreadHead(st, blog)), page, limit);
    var items := ThreadPage(st, blog, newestFirst, page, limit).items;
    ThreadPageIsWindow(st, blog, newestFirst, page, limit);
    if ThreadOf(st, c) in items {
      var k :| 0 <= k < |items| && items[k] == ThreadOf(st, c);
      assert w[k] == ThreadOf(st, w[k]).id == c;
    }
    if c in w {
      var k :| 0 <= k < |w| && w[k] == c;
      assert items[k] == ThreadOf(st, c);
    }
  }

  /** Thread `i` of a page is built from head `i` of the window, and the page count is that of the heads. */
  lemma ThreadPageIsWindow(st: Store, blog: BlogId, newestFirst: seq<CommentId>, page: nat, limit: nat)
    requires Enumerates(newestFirst, st.comments.Keys)
    requires page >= 1 && limit >= 1
    ensures var heads := Filter(newestFirst, IsThreadHead(st, blog));
            var w, p := Window(heads, page, limit), ThreadPage(st, blog, newestFirst, page, limit);
            && |p.items| == |w|
            && (forall i :: 0 <= i < |w| ==> p.items[i] == ThreadOf(st, w[i]))
            && p.pages == PageCount(|heads|, limit)
  {
  }

  /** PUT /api/comments/:id: 404, then 403 unless owner or admin; only an admin's request changes approval. */
  function UpdateComment(st: Store, caller: Caller, id: CommentId, patch: CommentPatch): (o: Outcome<Comment>)
    ensures id !in st.comments ==> o == Fail(st, NotFound)
    ensures id in st.comments && !CanMutate(caller, st.comments[id].author) ==> o == Fail(st, Forbidden)
    ensures id in st.comments && CanMutate(caller, st.comments[id].author) ==>
              && o.code == OK && o.store.comments.Keys == st.comments.Keys
              && o.data == Some(o.store.comments[id])
              && var c, c' := st.comments[id], o.store.comments[id];
              && (patch.content.Some? && patch.content.value != "" ==> c'.content == patch.content.value)
              && (patch.content.None? || patch.content.value == "" ==> c'.content == c.content)
              && (CanModerate(caller.role) && patch.isApproved.Some? ==> c'.isApproved == patch.isApproved.value)
              && (!CanModerate(caller.role) || patch.isApproved.None? ==> c'.isApproved == c.isApproved)
              && c'.(content := c.content, isApproved := c.isApproved) == c
              && (forall k :: k in st.comments && k != id ==> o.store.comments[k] == st.comments[k])
              && o.store.(comments := st.comments) == st
  {
    if id !in st.comments then Fail(st, NotFound)
    else
      var c := st.comments[id];
      if !CanMutate(caller, c.author) then Fail(st, Forbidden)
      else
        var content := if patch.content.Some? && patch.content.value != "" then patch.content.value else c.content;
        var approved := if patch.isApproved.Some? && CanModerate(caller.role) then patch.isApproved.value else c.isApproved;
        var c' := c.(content := content, isApproved := approved);
        Outcome(OK, st.(comments := st.comments[id := c']), Some(c'))
  }

  /** `$pull` of a reply id from its parent's `replies`; a parent that no longer exists is left alone. */
  function DetachReply(comments: map<CommentId, Comment>, parent: CommentId, id: CommentId): map<CommentId, Comment> {
    if parent in comments then comments[parent := comments[parent].(replies := Pull(comments[parent].replies, id))]
    else comments
  }

  /** `$pull` of a top-level comment id from its blog's `comments`; a blog that no longer exists is left alone. */
  function DetachTopLevel(blogs: map<BlogId, Blog>, blog: BlogId, id: CommentId): map<BlogId, Blog> {
    if blog in blogs then blogs[blog := blogs[blog].(comments := Pull(blogs[blog].comments, id))]
    else blogs
  }

  /** `deleteMany({ parentComment: id })`. */
  function WithoutChildren(comments: map<CommentId, Comment>, id: CommentId): map<CommentId, Comment> {
    map k | k in comments && comments[k].parentComment != Some(id) :: comments[k]
  }

  /**
   * DELETE /api/comments/:id: 404, then 403 unless owner or admin. A reply is pulled from
   * its parent's `replies` and deleted alone; a top-level comment is pulled from its blog's
   * `comments`, its direct replies are deleted, then the comment itself.
   */
  function DeleteComment(st: Store, caller: Caller, id: CommentId): (o: Outcome<()>)
    ensures id !in st.comments ==> o == Fail(st, NotFound)
    ensures id in st.comments && !CanMutate(caller, st.comments[id].author) ==> o == Fail(st, Forbidden)
    ensures id in st.comments && CanMutate(caller, st.comments[id].author) ==>
              o.code == OK && o.store.categories == st.categories && o.store.likes == st.likes
    ensures id in st.comments && CanMutate(caller, st.comments[id].author) && st.comments[id].parentComment.Some? ==>
              && var p := st.comments[id].parentComment.value;
              && o.store.comments.Keys == st.comments.Keys - {id}
              && o.store.blogs == st.blogs
              && (p in o.store.comments ==>
                    && o.store.comments[p].replies == Pull(st.comments[p].replies, id)
                    && (forall r :: r in o.store.comments[p].replies <==> r in st.comments[p].replies && r != id)
                    && o.store.comments[p].(replies := st.comments[p].replies) == st.comments[p])
              && (forall k :: k in o.store.comments && k != p ==> o.store.comments[k] == st.comments[k])
    ensures id in st.comments && CanMutate(caller, st.comments[id].author) && st.comments[id].parentComment.None? ==>
              && var b := st.comments[id].blog;
              && (forall k :: k in o.store.comments <==> k in st.comments && k != id && st.comments[k].parentComment != Some(id))
              && (forall k :: k in o.store.comments ==> o.store.comments[k] == st.comments[k])
              && (forall k :: k in o.store.comments ==> o.store.comments[k].parentComment != Some(id))
              && o.store.blogs.Keys == st.blogs.Keys
              && (b in st.blogs ==>
                    && o.store.blogs[b].comments == Pull(st.blogs[b].comments, id)
                    && (forall c :: c in o.store.blogs[b].comments <==> c in st.blogs[b].comments && c != id)
                    && o.store.blogs[b].(comments := st.blogs[b].comments) == st.blogs[b])
              && (forall other :: other in st.blogs && other != b ==> o.store.blogs[other] == st.blogs[other])
  {
    if id !in st.comments then Fail(st, NotFound)
    else
      var c := st.comments[id];
      if !CanMutate(caller, c.author) then Fail(st, Forbidden)
      else
        match c.parentComment
        case Some(p) =>
          Outcome(OK, st.(comments := DetachReply(st.comments, p, id) - {id}), None)
        case None =>
          Outcome(OK, st.(blogs := DetachTopLevel(st.blogs, c.blog, id), comments := WithoutChildren(st.comments, id) - {id}), None)
  }

  /** The cascade reaches direct replies only: a reply to one of them survives, naming a parent that is gone. */
  lemma CascadeStopsAtChildren(st: Store, caller: Caller, id: CommentId, g: CommentId)
    requires id in st.comments && CanMutate(caller, st.comments[id].author) && st.comments[id].parentComment.None?
    requires g in st.comments && g != id && st.comments[g].parentComment.Some?
    requires var k := st.comments[g].parentComment.value; k in st.comments && st.comments[k].parentComment == Some(id)
    ensures g in DeleteComment(st, caller, id).store.comments
    ensures DeleteComment(st, caller, id).store.comments[g].parentComment.value !in DeleteComment(st, caller, id).store.comments
  {
  }

  /** POST /api/comments/:id/like: toggles the caller's membership in the comment's `likes`. */
  function LikeComment(st: Store, caller: Caller, id: CommentId): (o: Outcome<CommentLikeState>)
    ensures id !in st.comments ==> o == Fail(st, NotFound)
    ensures id in st.comments ==>
              && o.code == OK && o.store.comments.Keys == st.comments.Keys
              && var before, after := st.comments[id].likes, o.store.comments[id].likes;
              && (caller.id in after <==> caller.id !in before)
              && (forall u :: u != caller.id ==> (u in after <==> u in before))
              && (NoDup(before) ==> NoDup(after))
              && o.data == Some(CommentLikeState(caller.id in after, |after|))
              && o.store.comments[id].(likes := before) == st.comments[id]
              && (forall k :: k in st.comments && k != id ==> o.store.comments[k] == st.comments[k])
              && o.store.(comments := st.comments) == st
  {
    if id !in st.comments then Fail(st, NotFound)
    else
      var c := st.comments[id];
      var wasLiked := caller.id in c.likes;
      var likes := if wasLiked then Pull(c.likes, caller.id) else c.likes + [caller.id];
      assert !wasLiked && NoDup(c.likes) ==> NoDup(likes) by {
        if !wasLiked && NoDup(c.likes) {
          NoDupAppend(c.likes, caller.id);
        }
      }
      Outcome(OK, st.(comments := st.comments[id := c.(likes := likes)]), Some(CommentLikeState(!wasLiked, |likes|)))
  }

  /** Two like toggles by the same caller restore who likes the comment; from "not liked" they restore the list itself. */
  lemma LikeCommentTwiceRestores(st: Store, caller: Caller, id: CommentId)
    requires id in st.comments
    ensures var s := LikeComment(LikeComment(st, caller, id).store, caller, id).store;
            && id in s.comments
            && (forall u :: u in s.comments[id].likes <==> u in st.comments[id].likes)
            && (caller.id !in st.comments[id].likes ==> s == st)
  {
    var c := st.comments[id];
    var s1 := LikeComment(st, caller, id).store;
    var s2 := LikeComment(s1, caller, id).store;
    if caller.id !in c.likes {
      assert s1 == st.(comments := st.comments[id := c.(likes := c.likes + [caller.id])]);
      PullAppended(c.likes, caller.id);
      assert s2.comments == st.comments[id := c];
      assert s2 == st;
    }
  }

  /** The non-tree parts of the invariant only look at blogs' publish, category and reaction fields and at comments' likes. */
  lemma OtherInvariantsKept(st: Store, s: Store)
    requires Valid(st)
    requires s.categories == st.categories && s.likes == st.likes
    requires s.blogs.Keys <= st.blogs.Keys
    requires forall b :: b in s.blogs ==> s.blogs[b].(comments := st.blogs[b].comments) == st.blogs[b]
    requires forall c :: c in s.comments ==> NoDup(s.comments[c].likes)
    ensures AllPublishConsistent(s) && CategoriesResolve(s) && UniqueCategoryNames(s)
    ensures LikesIndexed(s) && LikesMirrored(s) && CommentLikesDistinct(s)
  {
    assert forall b :: b in s.blogs ==>
      && s.blogs[b].likes == st.blogs[b].likes && s.blogs[b].status == st.blogs[b].status
      && s.blogs[b].isPublished == st.blogs[b].isPublished && s.blogs[b].category == st.blogs[b].category;
  }

  /** What creating reply `n` under `p` does to the comments, as the tree lemmas below need it. */
  ghost predicate AppendedReply(st: Store, s: Store, p: CommentId, n: CommentId) {
    && p in st.comments && n !in st.comments
    && s.blogs == st.blogs
    && s.comments.Keys == st.comments.Keys + {n}
    && s.comments[n].parentComment == Some(p) && s.comments[n].replies == []
    && s.comments[p].replies == st.comments[p].replies + [n]
    && s.comments[p].parentComment == st.comments[p].parentComment && s.comments[p].blog == st.comments[p].blog
    && (forall c :: c in st.comments && c != p ==> s.comments[c] == st.comments[c])
  }

  /** Storing reply `n` under `p` and appending it to `p`'s replies keeps the tree consistent. */
  lemma AppendReplyKeepsTree(st: Store, s: Store, p: CommentId, n: CommentId)
    requires CommentTree(st) && FreshCommentId(st, n) && AppendedReply(st, s, p, n)
    ensures CommentTree(s)
  {
    AppendReplyKeepsLinks(st, s, p, n);
    AppendReplyKeepsParentLists(st, s, p, n);
    AppendReplyKeepsThreads(st, s, p, n);
  }

  lemma AppendReplyKeepsThreads(st: Store, s: Store, p: CommentId, n: CommentId)
    requires NoSelfParent(st) && ThreadsLinked(st) && BlogsListTopLevel(st) && AppendedReply(st, s, p, n)
    ensures NoSelfParent(s) && ThreadsLinked(s) && BlogsListTopLevel(s)
  {
    forall c | c in st.comments
      ensures s.comments[c].parentComment == st.comments[c].parentComment && s.comments[c].blog == st.comments[c].blog
    {
    }
    forall b, c | b in s.blogs && c in s.blogs[b].comments
      ensures c in s.comments && s.comments[c].parentComment.None? && s.comments[c].blog == b
    {
      assert c in st.blogs[b].comments;
    }
    forall c | c in s.comments && s.comments[c].parentComment.None? && s.comments[c].blog in s.blogs
      ensures c in s.blogs[s.comments[c].blog].comments
    {
      assert c != n;
      assert c in st.blogs[st.comments[c].blog].comments;
    }
  }

  lemma AppendReplyKeepsLinks(st: Store, s: Store, p: CommentId, n: CommentId)
    requires RepliesLinked(st) && AppendedReply(st, s, p, n)
    ensures RepliesLinked(s)
  {
    forall q, r | q in s.comments && r in s.comments[q].replies
      ensures r in s.comments && s.comments[r].parentComment == Some(q)
    {
      AppendReplyLinkAt(st, s, p, n, q, r);
    }
  }

  lemma AppendReplyLinkAt(st: Store, s: Store, p: CommentId, n: CommentId, q: CommentId, r: CommentId)
    requires RepliesLinked(st) && AppendedReply(st, s, p, n)
    requires q in s.comments && r in s.comments[q].replies
    ensures r in s.comments && s.comments[r].parentComment == Some(q)
  {
    if q != n && q != p {
      assert r in st.comments[q].replies;
    } else if q == p && r != n {
      assert r in st.comments[p].replies;
    }
  }

  lemma AppendReplyKeepsParentLists(st: Store, s: Store, p: CommentId, n: CommentId)
    requires ParentsListReplies(st) && FreshCommentId(st, n) && AppendedReply(st, s, p, n)
    ensures ParentsListReplies(s)
  {
    forall c | c in s.comments && s.comments[c].parentComment.Some? && s.comments[c].parentComment.value in s.comments
      ensures c in s.comments[s.comments[c].parentComment.value].replies
    {
      if c != n {
        var q := st.comments[c].parentComment.value;
        assert q != n;
        assert c in st.comments[q].replies;
      }
    }
  }

  /** What creating top-level comment `n` on blog `b` does, as the tree lemmas below need it. */
  ghost predicate AppendedTopLevel(st: Store, s: Store, b: BlogId, n: CommentId) {
    && b in st.blogs && n !in st.comments
    && s.blogs.Keys == st.blogs.Keys
    && s.blogs[b].comments == st.blogs[b].comments + [n]
    && (forall x :: x in st.blogs && x != b ==> s.blogs[x].comments == st.blogs[x].comments)
    && s.comments.Keys == st.comments.Keys + {n}
    && s.comments[n].parentComment.None? && s.comments[n].blog == b && s.comments[n].replies == []
    && (forall c :: c in st.comments ==> s.comments[c] == st.comments[c])
  }

  /** Storing top-level comment `n` on blog `b` and appending it to the blog's comments keeps the tree consistent. */
  lemma AppendTopLevelKeepsTree(st: Store, s: Store, b: BlogId, n: CommentId)
    requires CommentTree(st) && FreshCommentId(st, n) && AppendedTopLevel(st, s, b, n)
    ensures CommentTree(s)
  {
    AppendTopLevelKeepsLinks(st, s, b, n);
    AppendTopLevelKeepsThreads(st, s, b, n);
  }

  lemma AppendTopLevelKeepsLinks(st: Store, s: Store, b: BlogId, n: CommentId)
    requires NoSelfParent(st) && RepliesLinked(st) && ParentsListReplies(st) && FreshCommentId(st, n)
    requires AppendedTopLevel(st, s, b, n)
    ensures NoSelfParent(s) && RepliesLinked(s) && ParentsListReplies(s)
  {
    AppendTopLevelKeepsReplyLinks(st, s, b, n);
    AppendTopLevelKeepsParentLists(st, s, b, n);
  }

  lemma AppendTopLevelKeepsReplyLinks(st: Store, s: Store, b: BlogId, n: CommentId)
    requires RepliesLinked(st) && AppendedTopLevel(st, s, b, n)
    ensures RepliesLinked(s)
  {
    forall q, r | q in s.comments && r in s.comments[q].replies
      ensures r in s.comments && s.comments[r].parentComment == Some(q)
    {
      assert q != n && q in st.comments;
      assert r in st.comments[q].replies;
    }
  }

  lemma AppendTopLevelKeepsParentLists(st: Store, s: Store, b: BlogId, n: CommentId)
    requires ParentsListReplies(st) && FreshCommentId(st, n) && AppendedTopLevel(st, s, b, n)
    ensures ParentsListReplies(s)
  {
    forall c | c in s.comments && s.comments[c].parentComment.Some? && s.comments[c].parentComment.value in s.comments
      ensures c in s.comments[s.comments[c].parentComment.value].replies
    {
      assert c != n && c in st.comments && s.comments[c] == st.comments[c];
      var q := st.comments[c].parentComment.value;
      assert q != n && q in st.comments && s.comments[q] == st.comments[q];
      assert c in st.comments[q].replies;
    }
  }

  lemma AppendTopLevelKeepsThreads(st: Store, s: Store, b: BlogId, n: CommentId)
    requires ThreadsLinked(st) && BlogsListTopLevel(st) && AppendedTopLevel(st, s, b, n)
    ensures ThreadsLinked(s) && BlogsListTopLevel(s)
  {
    forall x, c | x in s.blogs && c in s.blogs[x].comments
      ensures c in s.comments && s.comments[c].parentComment.None? && s.comments[c].blog == x
    {
      if c != n {
        assert c in st.blogs[x].comments;
      }
    }
    forall c | c in s.comments && s.comments[c].parentComment.None? && s.comments[c].blog in s.blogs
      ensures c in s.blogs[s.comments[c].blog].comments
    {
      if c != n {
        assert c in st.blogs[st.comments[c].blog].comments;
      }
    }
  }

  /** Creating a comment with a fresh id keeps the tree and its back-references consistent. */
  lemma CreateCommentPreservesValid(st: Store, caller: Caller, req: NewComment, newId: CommentId, approvedByDefault: bool)
    requires Valid(st) && FreshCommentId(st, newId)
    ensures Valid(CreateComment(st, caller, req, newId, approvedByDefault).store)
  {
    var o := CreateComment(st, caller, req, newId, approvedByDefault);
    if o.code == Created {
      if req.parentComment.Some? {
        CreateReplyPreservesValid(st, o.store, req.parentComment.value, newId);
      } else {
        forall x | x in o.store.blogs
          ensures o.store.blogs[x].(comments := st.blogs[x].comments) == st.blogs[x]
        {
          if x != req.blog {
            assert o.store.blogs[x] == st.blogs[x];
          }
        }
        CreateTopLevelPreservesValid(st, o.store, req.blog, newId);
      }
    }
  }

  lemma CreateReplyPreservesValid(st: Store, s: Store, p: CommentId, n: CommentId)
    requires Valid(st) && FreshCommentId(st, n) && AppendedReply(st, s, p, n)
    requires s.categories == st.categories && s.likes == st.likes
    requires s.comments[p].likes == st.comments[p].likes && s.comments[n].likes == []
    ensures Valid(s)
  {
    assert forall c :: c in s.comments && c != n && c != p ==> s.comments[c] == st.comments[c];
    OtherInvariantsKept(st, s);
    AppendReplyKeepsTree(st, s, p, n);
  }

  lemma CreateTopLevelPreservesValid(st: Store, s: Store, b: BlogId, n: CommentId)
    requires Valid(st) && FreshCommentId(st, n) && AppendedTopLevel(st, s, b, n)
    requires s.categories == st.categories && s.likes == st.likes
    requires forall x :: x in s.blogs ==> s.blogs[x].(comments := st.blogs[x].comments) == st.blogs[x]
    requires s.comments[n].likes == []
    ensures Valid(s)
  {
    OtherInvariantsKept(st, s);
    AppendTopLevelKeepsTree(st, s, b, n);
  }

  /** Changing a comment's content, approval or likes leaves the tree as it was. */
  lemma ReplaceCommentKeepsTree(st: Store, s: Store, id: CommentId)
    requires CommentTree(st) && id in st.comments
    requires s.blogs == st.blogs && s.comments.Keys == st.comments.Keys
    requires s.comments[id].(content := st.comments[id].content, isApproved := st.comments[id].isApproved, likes := st.comments[id].likes) == st.comments[id]
    requires forall c :: c in st.comments && c != id ==> s.comments[c] == st.comments[c]
    ensures CommentTree(s)
  {
    forall c | c in s.comments
      ensures SameLinks(st, s, c)
    {
      if c == id {
        assert s.comments[c].parentComment == st.comments[c].parentComment;
      }
    }
    SameLinksKeepTree(st, s);
  }

  /** Comment `c` has the same parent, blog and replies in both stores. */
  ghost predicate SameLinks(st: Store, s: Store, c: CommentId)
    requires c in st.comments && c in s.comments
  {
    && s.comments[c].parentComment == st.comments[c].parentComment
    && s.comments[c].blog == st.comments[c].blog
    && s.comments[c].replies == st.comments[c].replies
  }

  /** The tree only looks at the links between comments and at each blog's `comments` list. */
  lemma SameLinksKeepTree(st: Store, s: Store)
    requires CommentTree(st)
    requires s.blogs == st.blogs && s.comments.Keys == st.comments.Keys
    requires forall c :: c in s.comments ==> SameLinks(st, s, c)
    ensures CommentTree(s)
  {
    SameLinksKeepReplies(st, s);
    SameLinksKeepThreads(st, s);
  }

  lemma SameLinksKeepReplies(st: Store, s: Store)
    requires NoSelfParent(st) && RepliesLinked(st) && ParentsListReplies(st)
    requires s.comments.Keys == st.comments.Keys
    requires forall c :: c in s.comments ==> SameLinks(st, s, c)
    ensures NoSelfParent(s) && RepliesLinked(s) && ParentsListReplies(s)
  {
    forall c | c in s.comments
      ensures s.comments[c].parentComment != Some(c)
    {
      assert SameLinks(st, s, c);
    }
    SameLinksKeepReplyLinks(st, s);
    SameLinksKeepParentLists(st, s);
  }

  lemma SameLinksKeepReplyLinks(st: Store, s: Store)
    requires RepliesLinked(st)
    requires s.comments.Keys == st.comments.Keys
    requires forall c :: c in s.comments ==> SameLinks(st, s, c)
    ensures RepliesLinked(s)
  {
    forall q, r | q in s.comments && r in s.comments[q].replies
      ensures r in s.comments && s.comments[r].parentComment == Some(q)
    {
      assert SameLinks(st, s, q);
      assert r in st.comments && SameLinks(st, s, r);
    }
  }

  lemma SameLinksKeepParentLists(st: Store, s: Store)
    requires ParentsListReplies(st)
    requires s.comments.Keys == st.comments.Keys
    requires forall c :: c in s.comments ==> SameLinks(st, s, c)
    ensures ParentsListReplies(s)
  {
    forall c | c in s.comments && s.comments[c].parentComment.Some? && s.comments[c].parentComment.value in s.comments
      ensures c in s.comments[s.comments[c].parentComment.value].replies
    {
      assert SameLinks(st, s, c);
      assert SameLinks(st, s, s.comments[c].parentComment.value);
    }
  }

  lemma SameLinksKeepThreads(st: Store, s: Store)
    requires ThreadsLinked(st) && BlogsListTopLevel(st)
    requires s.blogs == st.blogs && s.comments.Keys == st.comments.Keys
    requires forall c :: c in s.comments ==> SameLinks(st, s, c)
    ensures ThreadsLinked(s) && BlogsListTopLevel(s)
  {
    forall x, c | x in s.blogs && c in s.blogs[x].comments
      ensures c in s.comments && s.comments[c].parentComment.None? && s.comments[c].blog == x
    {
      assert c in st.comments && SameLinks(st, s, c);
    }
    forall c | c in s.comments && s.comments[c].parentComment.None? && s.comments[c].blog in s.blogs
      ensures c in s.blogs[s.comments[c].blog].comments
    {
      assert SameLinks(st, s, c);
    }
  }

  lemma UpdateCommentPreservesValid(st: Store, caller: Caller, id: CommentId, patch: CommentPatch)
    requires Valid(st)
    ensures Valid(UpdateComment(st, caller, id, patch).store)
  {
    var o := UpdateComment(st, caller, id, patch);
    if o.code == OK {
      OtherInvariantsKept(st, o.store);
      ReplaceCommentKeepsTree(st, o.store, id);
    }
  }

  lemma LikeCommentPreservesValid(st: Store, caller: Caller, id: CommentId)
    requires Valid(st)
    ensures Valid(LikeComment(st, caller, id).store)
  {
    var o := LikeComment(st, caller, id);
    if o.code == OK {
      OtherInvariantsKept(st, o.store);
      ReplaceCommentKeepsTree(st, o.store, id);
    }
  }

  /** Pulling reply `id` from its parent `p` and deleting it alone keeps the tree consistent. */
  lemma DetachReplyKeepsTree(st: Store, s: Store, p: CommentId, id: CommentId)
    requires CommentTree(st) && id in st.comments && st.comments[id].parentComment == Some(p)
    requires s.blogs == st.blogs
    requires s.comments.Keys == st.comments.Keys - {id}
    requires p in s.comments ==>
               && (forall r :: r in s.comments[p].replies <==> r in st.comments[p].replies && r != id)
               && s.comments[p].(replies := st.comments[p].replies) == st.comments[p]
    requires forall k :: k in s.comments && k != p ==> s.comments[k] == st.comments[k]
    ensures CommentTree(s)
  {
    assert forall c :: c in s.comments ==> s.comments[c].parentComment == st.comments[c].parentComment && s.comments[c].blog == st.comments[c].blog;
    DetachReplyKeepsLinks(st, s, p, id);
    DetachReplyKeepsThreads(st, s, id);
  }

  lemma DetachReplyKeepsLinks(st: Store, s: Store, p: CommentId, id: CommentId)
    requires NoSelfParent(st) && RepliesLinked(st) && ParentsListReplies(st)
    requires id in st.comments && st.comments[id].parentComment == Some(p)
    requires s.comments.Keys == st.comments.Keys - {id}
    requires p in s.comments ==>
               && (forall r :: r in s.comments[p].replies <==> r in st.comments[p].replies && r != id)
    requires forall k :: k in s.comments && k != p ==> s.comments[k] == st.comments[k]
    requires forall c :: c in s.comments ==> s.comments[c].parentComment == st.comments[c].parentComment
    ensures NoSelfParent(s) && RepliesLinked(s) && ParentsListReplies(s)
  {
    DetachReplyKeepsReplyLinks(st, s, p, id);
    DetachReplyKeepsParentLists(st, s, p, id);
  }

  lemma DetachReplyKeepsReplyLinks(st: Store, s: Store, p: CommentId, id: CommentId)
    requires RepliesLinked(st)
    requires id in st.comments && st.comments[id].parentComment == Some(p)
    requires s.comments.Keys == st.comments.Keys - {id}
    requires p in s.comments ==>
               && (forall r :: r in s.comments[p].replies <==> r in st.comments[p].replies && r != id)
    requires forall k :: k in s.comments && k != p ==> s.comments[k] == st.comments[k]
    requires forall c :: c in s.comments ==> s.comments[c].parentComment == st.comments[c].parentComment
    ensures RepliesLinked(s)
  {
    forall q, r | q in s.comments && r in s.comments[q].replies
      ensures r in s.comments && s.comments[r].parentComment == Some(q)
    {
      assert r in st.comments[q].replies;
    }
  }

  lemma DetachReplyKeepsParentLists(st: Store, s: Store, p: CommentId, id: CommentId)
    requires ParentsListReplies(st)
    requires id in st.comments && st.comments[id].parentComment == Some(p)
    requires s.comments.Keys == st.comments.Keys - {id}
    requires p in s.comments ==>
               && (forall r :: r in s.comments[p].replies <==> r in st.comments[p].replies && r != id)
    requires forall k :: k in s.comments && k != p ==> s.comments[k] == st.comments[k]
    requires forall c :: c in s.comments ==> s.comments[c].parentComment == st.comments[c].parentComment
    ensures ParentsListReplies(s)
  {
    forall c | c in s.comments && s.comments[c].parentComment.Some? && s.comments[c].parentComment.value in s.comments
      ensures c in s.comments[s.comments[c].parentComment.value].replies
    {
      assert c in st.comments[s.comments[c].parentComment.value].replies;
    }
  }

  lemma DetachReplyKeepsThreads(st: Store, s: Store, id: CommentId)
    requires ThreadsLinked(st) && BlogsListTopLevel(st)
    requires id in st.comments && st.comments[id].parentComment.Some?
    requires s.blogs == st.blogs
    requires s.comments.Keys == st.comments.Keys - {id}
    requires forall c :: c in s.comments ==> s.comments[c].parentComment == st.comments[c].parentComment && s.comments[c].blog == st.comments[c].blog
    ensures ThreadsLinked(s) && BlogsListTopLevel(s)
  {
    forall x, c | x in s.blogs && c in s.blogs[x].comments
      ensures c in s.comments && s.comments[c].parentComment.None? && s.comments[c].blog == x
    {
      assert c in st.comments && st.comments[c].parentComment.None?;
    }
  }

  /** What deleting top-level comment `id` of blog `b` with its direct replies does, as the tree lemmas below need it. */
  ghost predicate Cascaded(st: Store, s: Store, b: BlogId, id: CommentId) {
    && id in st.comments && st.comments[id].parentComment.None? && st.comments[id].blog == b
    && (forall k :: k in s.comments <==> k in st.comments && k != id && st.comments[k].parentComment != Some(id))
    && (forall k :: k in s.comments ==> s.comments[k] == st.comments[k])
    && s.blogs.Keys == st.blogs.Keys
    && (b in st.blogs ==> forall c :: c in s.blogs[b].comments <==> c in st.blogs[b].comments && c != id)
    && (forall x :: x in st.blogs && x != b ==> s.blogs[x].comments == st.blogs[x].comments)
  }

  /** Pulling top-level comment `id` from blog `b`, deleting its direct replies and then itself keeps the tree consistent. */
  lemma CascadeKeepsTree(st: Store, s: Store, b: BlogId, id: CommentId)
    requires CommentTree(st) && Cascaded(st, s, b, id)
    ensures CommentTree(s)
  {
    CascadeKeepsLinks(st, s, b, id);
    CascadeKeepsThreads(st, s, b, id);
  }

  lemma CascadeKeepsLinks(st: Store, s: Store, b: BlogId, id: CommentId)
    requires NoSelfParent(st) && RepliesLinked(st) && ParentsListReplies(st) && Cascaded(st, s, b, id)
    ensures NoSelfParent(s) && RepliesLinked(s) && ParentsListReplies(s)
  {
    CascadeKeepsReplyLinks(st, s, b, id);
    assert NoSelfParent(s);
    assert ParentsListReplies(s) by {
      forall c | c in s.comments && s.comments[c].parentComment.Some? && s.comments[c].parentComment.value in s.comments
        ensures c in s.comments[s.comments[c].parentComment.value].replies
      {
        var q := s.comments[c].parentComment.value;
        assert s.comments[c] == st.comments[c] && s.comments[q] == st.comments[q];
      }
    }
  }

  lemma CascadeKeepsReplyLinks(st: Store, s: Store, b: BlogId, id: CommentId)
    requires RepliesLinked(st) && Cascaded(st, s, b, id)
    ensures RepliesLinked(s)
  {
    forall q, r | q in s.comments && r in s.comments[q].replies
      ensures r in s.comments && s.comments[r].parentComment == Some(q)
    {
      assert s.comments[q] == st.comments[q];
      assert r in st.comments[q].replies;
      assert r in st.comments && st.comments[r].parentComment == Some(q);
    }
  }

  lemma CascadeKeepsThreads(st: Store, s: Store, b: BlogId, id: CommentId)
    requires ThreadsLinked(st) && BlogsListTopLevel(st) && Cascaded(st, s, b, id)
    ensures ThreadsLinked(s) && BlogsListTopLevel(s)
  {
    CascadeKeepsThreadLinks(st, s, b, id);
    CascadeKeepsTopLevelLists(st, s, b, id);
  }

  lemma CascadeKeepsThreadLinks(st: Store, s: Store, b: BlogId, id: CommentId)
    requires ThreadsLinked(st) && Cascaded(st, s, b, id)
    ensures ThreadsLinked(s)
  {
    forall x, c | x in s.blogs && c in s.blogs[x].comments
      ensures c in s.comments && s.comments[c].parentComment.None? && s.comments[c].blog == x
    {
      assert x in st.blogs;
      assert c in st.blogs[x].comments && c != id;
      assert c in st.comments && st.comments[c].parentComment.None?;
    }
  }

  lemma CascadeKeepsTopLevelLists(st: Store, s: Store, b: BlogId, id: CommentId)
    requires BlogsListTopLevel(st) && Cascaded(st, s, b, id)
    ensures BlogsListTopLevel(s)
  {
    forall c | c in s.comments && s.comments[c].parentComment.None? && s.comments[c].blog in s.blogs
      ensures c in s.blogs[s.comments[c].blog].comments
    {
      assert c in st.comments && c != id && s.comments[c] == st.comments[c];
      var x := st.comments[c].blog;
      assert x in st.blogs;
      assert c in st.blogs[x].comments;
    }
  }

  /** Deleting a comment, with or without the cascade, leaves no list naming a deleted comment. */
  lemma DeleteCommentPreservesValid(st: Store, caller: Caller, id: CommentId)
    requires Valid(st)
    ensures Valid(DeleteComment(st, caller, id).store)
  {
    var o := DeleteComment(st, caller, id);
    if o.code == OK {
      var c := st.comments[id];
      if c.parentComment.Some? {
        DeleteReplyPreservesValid(st, o.store, c.parentComment.value, id);
      } else {
        DeleteTopLevelPreservesValid(st, o.store, c.blog, id);
      }
    }
  }

  lemma DeleteReplyPreservesValid(st: Store, s: Store, p: CommentId, id: CommentId)
    requires Valid(st) && id in st.comments && st.comments[id].parentComment == Some(p)
    requires s.categories == st.categories && s.likes == st.likes && s.blogs == st.blogs
    requires s.comments.Keys == st.comments.Keys - {id}
    requires p in s.comments ==>
               && (forall r :: r in s.comments[p].replies <==> r in st.comments[p].replies && r != id)
               && s.comments[p].(replies := st.comments[p].replies) == st.comments[p]
    requires forall k :: k in s.comments && k != p ==> s.comments[k] == st.comments[k]
    ensures Valid(s)
  {
    assert forall k :: k in s.comments ==> s.comments[k].likes == st.comments[k].likes;
    OtherInvariantsKept(st, s);
    DetachReplyKeepsTree(st, s, p, id);
  }

  lemma DeleteTopLevelPreservesValid(st: Store, s: Store, b: BlogId, id: CommentId)
    requires Valid(st) && id in st.comments && st.comments[id].parentComment.None? && st.comments[id].blog == b
    requires s.categories == st.categories && s.likes == st.likes
    requires forall k :: k in s.comments <==> k in st.comments && k != id && st.comments[k].parentComment != Some(id)
    requires forall k :: k in s.comments ==> s.comments[k] == st.comments[k]
    requires s.blogs.Keys == st.blogs.Keys
    requires b in st.blogs ==>
               && (forall c :: c in s.blogs[b].comments <==> c in st.blogs[b].comments && c != id)
               && s.blogs[b].(comments := st.blogs[b].comments) == st.blogs[b]
    requires forall other :: other in st.blogs && other != b ==> s.blogs[other] == st.blogs[other]
    ensures Valid(s)
  {
    forall x | x in s.blogs
      ensures s.blogs[x].(comments := st.blogs[x].comments) == st.blogs[x]
    {
      if x != b {
        assert s.blogs[x] == st.blogs[x];
      }
    }
    forall k | k in s.comments
      ensures NoDup(s.comments[k].likes)
    {
      assert s.comments[k] == st.comments[k];
    }
    OtherInvariantsKept(st, s);
    assert forall x :: x in st.blogs && x != b ==> s.blogs[x].comments == st.blogs[x].comments;
    assert Cascaded(st, s, b, id);
    CascadeKeepsTree(st, s, b, id);
  }
}

=== FILE: invariants.dfy ===
/**
 * Consistency conditions on the store that the handlers maintain: the publish flag,
 * category references, unique category names, the Like index and its mirror in
 * `Blog.likes`, and the two-level comment tree with its back-references.
 */
module Invariants {
  import opened Wrappers
  import opened Seqs
  import opened Model

  /** `isPublished` is true exactly when the status is `published`. */
  ghost predicate PublishConsistent(b: Blog) {
    b.isPublished == (b.status == Published)
  }

  ghost predicate AllPublishConsistent(st: Store) {
    forall id :: id in st.blogs ==> PublishConsistent(st.blogs[id])
  }

  /** Every blog names a category that exists. */
  ghost predicate CategoriesResolve(st: Store) {
    forall id :: id in st.blogs ==> st.blogs[id].category in st.categories
  }

  /** No two categories share a name. */
  ghost predicate UniqueCategoryNames(st: Store) {
    forall a, b :: a in st.categories && b in st.categories && a != b ==>
      st.categories[a].name != st.categories[b].name
  }

  /** Each Like document is stored under the (user, blog) pair it names. */
  ghost predicate LikesIndexed(st: Store) {
    forall k :: k in st.likes ==> st.likes[k].user == k.user && st.likes[k].blog == k.blog
  }

  /** `Blog.likes` lists each reacting user once, and lists a user exactly when a Like document exists for the pair. */
  ghost predicate LikesMirrored(st: Store) {
    forall b :: b in st.blogs ==>
      && NoDup(st.blogs[b].likes)
      && forall u :: u in st.blogs[b].likes <==> LikeKey(u, b) in st.likes
  }

  ghost predicate CommentLikesDistinct(st: Store) {
    forall c :: c in st.comments ==> NoDup(st.comments[c].likes)
  }

  /** No comment is its own parent. */
  ghost predicate NoSelfParent(st: Store) {
    forall c :: c in st.comments ==> st.comments[c].parentComment != Some(c)
  }

  /** Every id in a `replies` list is a stored comment whose parent is the listing comment. */
  ghost predicate RepliesLinked(st: Store) {
    forall p, r :: p in st.comments && r in st.comments[p].replies ==>
      r in st.comments && st.comments[r].parentComment == Some(p)
  }

  /** Every id in a blog's `comments` list is a stored top-level comment of that blog. */
  ghost predicate ThreadsLinked(st: Store) {
    forall b, c :: b in st.blogs && c in st.blogs[b].comments ==>
      c in st.comments && st.comments[c].parentComment.None? && st.comments[c].blog == b
  }

  /** A reply whose parent is stored is listed in the parent's `replies`. */
  ghost predicate ParentsListReplies(st: Store) {
    forall c :: c in st.comments && st.comments[c].parentComment.Some? && st.comments[c].parentComment.value in st.comments ==>
      c in st.comments[st.comments[c].parentComment.value].replies
  }

  /** A top-level comment whose blog is stored is listed in the blog's `comments`. */
  ghost predicate BlogsListTopLevel(st: Store) {
    forall c :: c in st.comments && st.comments[c].parentComment.None? && st.comments[c].blog in st.blogs ==>
      c in st.blogs[st.comments[c].blog].comments
  }

  ghost predicate CommentTree(st: Store) {
    && NoSelfParent(st)
    && RepliesLinked(st)
    && ThreadsLinked(st)
    && ParentsListReplies(st)
    && BlogsListTopLevel(st)
  }

  ghost predicate Valid(st: Store) {
    && AllPublishConsistent(st)
    && CategoriesResolve(st)
    && UniqueCategoryNames(st)
    && LikesIndexed(st)
    && LikesMirrored(st)
    && CommentLikesDistinct(st)
    && CommentTree(st)
  }

  /** A new blog ObjectId: unused, and not named by any comment or Like left behind by a deleted blog. */
  ghost predicate FreshBlogId(st: Store, id: BlogId) {
    && id !in st.blogs
    && (forall c :: c in st.comments ==> st.comments[c].blog != id)
    && (forall k :: k in st.likes ==> k.blog != id)
  }

  /** A new comment ObjectId: unused, and not named as the parent of a comment left behind by a cascade. */
  ghost predicate FreshCommentId(st: Store, id: CommentId) {
    && id !in st.comments
    && (forall c :: c in st.comments ==> st.comments[c].parentComment != Some(id))
  }

  /** The comment tree only looks at the comments and at each blog's `comments` list. */
  lemma SameThreadListsKeepTree(st: Store, s: Store)
    requires CommentTree(st)
    requires s.comments == st.comments && s.blogs.Keys == st.blogs.Keys
    requires forall x :: x in s.blogs ==> s.blogs[x].comments == st.blogs[x].comments
    ensures CommentTree(s)
  {
    assert ThreadsLinked(s);
    assert BlogsListTopLevel(s);
  }

  /** The Like mirror only looks at the Like documents and at each blog's `likes` list. */
  lemma SameReactionListsKeepMirror(st: Store, s: Store)
    requires LikesIndexed(st) && LikesMirrored(st)
    requires s.likes == st.likes && s.blogs.Keys == st.blogs.Keys
    requires forall x :: x in s.blogs ==> s.blogs[x].likes == st.blogs[x].likes
    ensures LikesIndexed(s) && LikesMirrored(s)
  {
  }

  /** A change confined to the categories keeps every invariant that does not mention them. */
  lemma CategoryChangeKeepsValid(st: Store, s: Store)
    requires Valid(st)
    requires s.blogs == st.blogs && s.comments == st.comments && s.likes == st.likes
    requires UniqueCategoryNames(s) && CategoriesResolve(s)
    ensures Valid(s)
  {
    SameThreadListsKeepTree(st, s);
    SameReactionListsKeepMirror(st, s);
    assert AllPublishConsistent(s) && CommentLikesDistinct(s);
  }

  /** The empty store satisfies every invariant. */
  lemma EmptyStoreValid()
    ensures Valid(Store(map[], map[], map[], map[]))
  {
  }
}

=== FILE: likes.dfy ===
/**
 * The like/dislike reaction of a user to a blog: none, like or dislike. A Like document
 * per (user, blog) pair records the reaction, and `Blog.likes` lists every user who has
 * one, whatever its type.
 */
module Likes {
  import opened Wrappers
  import opened Seqs
  import opened Model
  import opened Invariants

  /** The `data` of a toggle response; `likeType` echoes the submitted type and is absent on removal. */
  datatype ToggleState = ToggleState(isLiked: bool, likeType: Option<LikeType>, likeCount: int)

  /** The branch a toggle takes once the blog is found. */
  datatype Reaction = Remove | Change(to: LikeType) | Add(to: LikeType)

  /** The type of the caller's current reaction, looked up through the unique (user, blog) index. */
  function Existing(st: Store, caller: Caller, blog: BlogId): Option<LikeType> {
    var key := LikeKey(caller.id, blog);
    if key in st.likes then Some(st.likes[key].kind) else None
  }

  /**
   * The branch as written: an existing reaction is removed only when its stored type is
   * strictly equal to the submitted one, and an omitted type never equals a stored one.
   */
  function Decide(existing: Option<LikeType>, kind: Option<LikeType>): Reaction {
    match existing
    case None => Add(kind.GetOr(Like))
    case Some(e) => if Some(e) == kind then Remove else Change(kind.GetOr(Like))
  }

  /** The branch as intended: an omitted type means `like`, on removal as on creation. */
  function DecideIntended(existing: Option<LikeType>, kind: Option<LikeType>): Reaction {
    match existing
    case None => Add(kind.GetOr(Like))
    case Some(e) => if e == kind.GetOr(Like) then Remove else Change(kind.GetOr(Like))
  }

  /** The reaction of `u` to `blog` was deleted and `u` pulled from `Blog.likes`; nothing else changed. */
  ghost predicate RemovedReaction(st: Store, s: Store, u: UserId, blog: BlogId)
    requires blog in st.blogs
  {
    && s.likes == st.likes - {LikeKey(u, blog)}
    && s.blogs == st.blogs[blog := st.blogs[blog].(likes := Pull(st.blogs[blog].likes, u))]
    && s.comments == st.comments && s.categories == st.categories
  }

  /** The type of the reaction of `u` to `blog` became `to`; nothing else changed. */
  ghost predicate ChangedReaction(st: Store, s: Store, u: UserId, blog: BlogId, to: LikeType)
    requires LikeKey(u, blog) in st.likes
  {
    && s.likes == st.likes[LikeKey(u, blog) := st.likes[LikeKey(u, blog)].(kind := to)]
    && s.blogs == st.blogs && s.comments == st.comments && s.categories == st.categories
  }

  /** A reaction of type `to` by `u` to `blog` was stored and `u` pushed onto `Blog.likes`; nothing else changed. */
  ghost predicate AddedReaction(st: Store, s: Store, u: UserId, blog: BlogId, to: LikeType)
    requires blog in st.blogs
  {
    && s.likes == st.likes[LikeKey(u, blog) := LikeRecord(u, blog, to)]
    && s.blogs == st.blogs[blog := st.blogs[blog].(likes := st.blogs[blog].likes + [u])]
    && s.comments == st.comments && s.categories == st.categories
  }

  /** Carries out a branch; the counts come from the blog as it was read before the update. */
  function Apply(st: Store, caller: Caller, blog: BlogId, kind: Option<LikeType>, step: Reaction): (o: Outcome<ToggleState>)
    requires blog in st.blogs
    requires step.Add? <==> LikeKey(caller.id, blog) !in st.likes
  {
    var key := LikeKey(caller.id, blog);
    var b := st.blogs[blog];
    match step
    case Remove =>
      Outcome(OK, st.(likes := st.likes - {key}, blogs := st.blogs[blog := b.(likes := Pull(b.likes, caller.id))]),
              Some(ToggleState(false, None, |b.likes| - 1)))
    case Change(to) =>
      Outcome(OK, st.(likes := st.likes[key := st.likes[key].(kind := to)]),
              Some(ToggleState(true, kind, |b.likes|)))
    case Add(to) =>
      Outcome(Created, st.(likes := st.likes[key := LikeRecord(caller.id, blog, to)], blogs := st.blogs[blog := b.(likes := b.likes + [caller.id])]),
              Some(ToggleState(true, kind, |b.likes| + 1)))
  }

  /**
   * POST /api/likes, as written: 404 for a missing blog; a first reaction is created
   * (type `like` unless given) with 201; resubmitting the stored type removes it; any
   * other submission, an omitted type included, overwrites the type.
   */
  function ToggleLike(st: Store, caller: Caller, blog: BlogId, kind: Option<LikeType>): (o: Outcome<ToggleState>)
    ensures blog !in st.blogs ==> o == Fail(st, NotFound)
    ensures blog in st.blogs && LikeKey(caller.id, blog) !in st.likes ==>
              && o.code == Created
              && AddedReaction(st, o.store, caller.id, blog, kind.GetOr(Like))
              && o.data == Some(ToggleState(true, kind, |st.blogs[blog].likes| + 1))
    ensures blog in st.blogs && LikeKey(caller.id, blog) in st.likes && Some(st.likes[LikeKey(caller.id, blog)].kind) == kind ==>
              && o.code == OK
              && RemovedReaction(st, o.store, caller.id, blog)
              && o.data == Some(ToggleState(false, None, |st.blogs[blog].likes| - 1))
    ensures blog in st.blogs && LikeKey(caller.id, blog) in st.likes && Some(st.likes[LikeKey(caller.id, blog)].kind) != kind ==>
              && o.code == OK
              && ChangedReaction(st, o.store, caller.id, blog, kind.GetOr(Like))
              && o.data == Some(ToggleState(true, kind, |st.blogs[blog].likes|))
  {
    if blog !in st.blogs then Fail(st, NotFound)
    else Apply(st, caller, blog, kind, Decide(Existing(st, caller, blog), kind))
  }

  /** POST /api/likes with an omitted type read as `like` when comparing with the stored reaction. */
  function ToggleLikeIntended(st: Store, caller: Caller, blog: BlogId, kind: Option<LikeType>): (o: Outcome<ToggleState>)
    ensures blog !in st.blogs ==> o == Fail(st, NotFound)
    ensures blog in st.blogs && LikeKey(caller.id, blog) !in st.likes ==>
              && o.code == Created
              && AddedReaction(st, o.store, caller.id, blog, kind.GetOr(Like))
    ensures blog in st.blogs && LikeKey(caller.id, blog) in st.likes && st.likes[LikeKey(caller.id, blog)].kind == kind.GetOr(Like) ==>
              && o.code == OK
              && RemovedReaction(st, o.store, caller.id, blog)
    ensures blog in st.blogs && LikeKey(caller.id, blog) in st.likes && st.likes[LikeKey(caller.id, blog)].kind != kind.GetOr(Like) ==>
              && o.code == OK
              && ChangedReaction(st, o.store, caller.id, blog, kind.GetOr(Like))
  {
    if blog !in st.blogs then Fail(st, NotFound)
    else Apply(st, caller, blog, kind, DecideIntended(Existing(st, caller, blog), kind))
  }

  /** Every branch keeps the Like index and its mirror in `Blog.likes`, and touches nothing else. */
  lemma ApplyPreservesValid(st: Store, caller: Caller, blog: BlogId, kind: Option<LikeType>, step: Reaction)
    requires Valid(st) && blog in st.blogs
    requires step.Add? <==> LikeKey(caller.id, blog) !in st.likes
    ensures Valid(Apply(st, caller, blog, kind, step).store)
  {
    var s := Apply(st, caller, blog, kind, step).store;
    match step
    case Remove =>
      assert RemovedReaction(st, s, caller.id, blog);
      RemoveKeepsValid(st, s, caller.id, blog);
    case Change(to) =>
      assert ChangedReaction(st, s, caller.id, blog, to);
      ChangeKeepsValid(st, s, caller.id, blog, to);
    case Add(to) =>
      assert AddedReaction(st, s, caller.id, blog, to);
      AddKeepsValid(st, s, caller.id, blog, to);
  }

  lemma RemoveKeepsValid(st: Store, s: Store, u: UserId, blog: BlogId)
    requires Valid(st) && blog in st.blogs && RemovedReaction(st, s, u, blog)
    ensures Valid(s)
  {
    RemoveKeepsMirror(st, s, u, blog);
    ReactionKeepsValid(st, s);
  }

  lemma ChangeKeepsValid(st: Store, s: Store, u: UserId, blog: BlogId, to: LikeType)
    requires Valid(st) && LikeKey(u, blog) in st.likes && ChangedReaction(st, s, u, blog, to)
    ensures Valid(s)
  {
    assert LikesIndexed(s) && LikesMirrored(s);
    ReactionKeepsValid(st, s);
  }

  lemma AddKeepsValid(st: Store, s: Store, u: UserId, blog: BlogId, to: LikeType)
    requires Valid(st) && blog in st.blogs && LikeKey(u, blog) !in st.likes && AddedReaction(st, s, u, blog, to)
    ensures Valid(s)
  {
    AddKeepsMirror(st, s, u, blog, to);
    ReactionKeepsValid(st, s);
  }

  lemma RemoveKeepsMirror(st: Store, s: Store, u: UserId, blog: BlogId)
    requires LikesIndexed(st) && LikesMirrored(st) && blog in st.blogs && RemovedReaction(st, s, u, blog)
    ensures LikesIndexed(s) && LikesMirrored(s)
  {
  }

  lemma AddKeepsMirror(st: Store, s: Store, u: UserId, blog: BlogId, to: LikeType)
    requires LikesIndexed(st) && LikesMirrored(st) && blog in st.blogs && LikeKey(u, blog) !in st.likes
    requires AddedReaction(st, s, u, blog, to)
    ensures LikesIndexed(s) && LikesMirrored(s)
  {
    NoDupAppend(st.blogs[blog].likes, u);
  }

  /** A change confined to the Like documents and to the blogs' `likes` lists keeps everything but the mirror. */
  lemma ReactionKeepsValid(st: Store, s: Store)
    requires Valid(st) && LikesIndexed(s) && LikesMirrored(s)
    requires s.comments == st.comments && s.categories == st.categories
    requires s.blogs.Keys == st.blogs.Keys
    requires forall x :: x in s.blogs ==> s.blogs[x].(likes := st.blogs[x].likes) == st.blogs[x]
    ensures Valid(s)
  {
    assert forall x :: x in s.blogs ==> s.blogs[x].comments == st.blogs[x].comments;
    SameThreadListsKeepTree(st, s);
  }

  lemma ToggleLikePreservesValid(st: Store, caller: Caller, blog: BlogId, kind: Option<LikeType>)
    requires Valid(st)
    ensures Valid(ToggleLike(st, caller, blog, kind).store)
  {
    if blog in st.blogs {
      ApplyPreservesValid(st, caller, blog, kind, Decide(Existing(st, caller, blog), kind));
    }
  }

  lemma ToggleLikeIntendedPreservesValid(st: Store, caller: Caller, blog: BlogId, kind: Option<LikeType>)
    requires Valid(st)
    ensures Valid(ToggleLikeIntended(st, caller, blog, kind).store)
  {
    if blog in st.blogs {
      ApplyPreservesValid(st, caller, blog, kind, DecideIntended(Existing(st, caller, blog), kind));
    }
  }

  /** On a consistent store the reported count is the new length of `Blog.likes`, and `isLiked` the new membership. */
  lemma ApplyReportsLikes(st: Store, caller: Caller, blog: BlogId, kind: Option<LikeType>, step: Reaction)
    requires Valid(st) && blog in st.blogs
    requires step.Add? <==> LikeKey(caller.id, blog) !in st.likes
    ensures var o := Apply(st, caller, blog, kind, step);
            && o.data.Some?
            && o.data.value.likeCount == |o.store.blogs[blog].likes|
            && (o.data.value.isLiked <==> caller.id in o.store.blogs[blog].likes)
            && (o.data.value.isLiked <==> LikeKey(caller.id, blog) in o.store.likes)
  {
    var b := st.blogs[blog];
    if step.Remove? {
      assert caller.id in b.likes;
      assert |Pull(b.likes, caller.id)| == |b.likes| - 1;
    }
  }

  lemma ToggleLikeReportsLikes(st: Store, caller: Caller, blog: BlogId, kind: Option<LikeType>)
    requires Valid(st) && blog in st.blogs
    ensures var o := ToggleLike(st, caller, blog, kind);
            && o.data.Some?
            && o.data.value.likeCount == |o.store.blogs[blog].likes|
            && (o.data.value.isLiked <==> caller.id in o.store.blogs[blog].likes)
            && (o.data.value.isLiked <==> LikeKey(caller.id, blog) in o.store.likes)
  {
    ApplyReportsLikes(st, caller, blog, kind, Decide(Existing(st, caller, blog), kind));
  }

  lemma ToggleLikeIntendedReportsLikes(st: Store, caller: Caller, blog: BlogId, kind: Option<LikeType>)
    requires Valid(st) && blog in st.blogs
    ensures var o := ToggleLikeIntended(st, caller, blog, kind);
            && o.data.Some?
            && o.data.value.likeCount == |o.store.blogs[blog].likes|
            && (o.data.value.isLiked <==> caller.id in o.store.blogs[blog].likes)
            && (o.data.value.isLiked <==> LikeKey(caller.id, blog) in o.store.likes)
  {
    ApplyReportsLikes(st, caller, blog, kind, DecideIntended(Existing(st, caller, blog), kind));
  }

  /** Adding a reaction and then removing it gives back the store exactly. */
  lemma AddThenRemoveRestores(st: Store, s: Store, s2: Store, u: UserId, blog: BlogId, to: LikeType)
    requires blog in st.blogs && LikeKey(u, blog) !in st.likes && u !in st.blogs[blog].likes
    requires AddedReaction(st, s, u, blog, to)
    requires blog in s.blogs && RemovedReaction(s, s2, u, blog)
    ensures s2 == st
  {
    PullAppended(st.blogs[blog].likes, u);
    assert s2.blogs[blog] == st.blogs[blog];
    assert s2.blogs == st.blogs;
    assert s2.likes == st.likes;
  }

  /** Submitting the same explicit type twice, starting from no reaction, returns to no reaction. */
  lemma SameTypeTwiceRestores(st: Store, caller: Caller, blog: BlogId, kind: LikeType)
    requires Valid(st) && blog in st.blogs && LikeKey(caller.id, blog) !in st.likes
    ensures var o1 := ToggleLike(st, caller, blog, Some(kind));
            var o2 := ToggleLike(o1.store, caller, blog, Some(kind));
            o1.code == Created && o2.code == OK && o2.store == st && !o2.data.value.isLiked
  {
    var o1 := ToggleLike(st, caller, blog, Some(kind));
    AddThenRemoveRestores(st, o1.store, ToggleLike(o1.store, caller, blog, Some(kind)).store, caller.id, blog, kind);
  }

  /** A like followed by a dislike switches the type in place: `Blog.likes` stays as the like left it. */
  lemma LikeThenDislikeSwitches(st: Store, caller: Caller, blog: BlogId)
    requires blog in st.blogs && LikeKey(caller.id, blog) !in st.likes
    ensures var s1 := ToggleLike(st, caller, blog, Some(Like)).store;
            var o2 := ToggleLike(s1, caller, blog, Some(Dislike));
            && o2.code == OK && o2.data.value.isLiked
            && o2.store.likes[LikeKey(caller.id, blog)].kind == Dislike
            && o2.store.blogs == s1.blogs
            && |o2.store.blogs[blog].likes| == |st.blogs[blog].likes| + 1
  {
  }

  /** As written, a toggle with the type omitted never removes a reaction: the record is there afterwards. */
  lemma OmittedTypeNeverRemoves(st: Store, caller: Caller, blog: BlogId)
    requires blog in st.blogs
    ensures LikeKey(caller.id, blog) in ToggleLike(st, caller, blog, None).store.likes
  {
  }

  /** So two omitted-type toggles from no reaction leave a `like` behind instead of restoring the store. */
  lemma OmittedTypeTwiceKeepsLike(st: Store, caller: Caller, blog: BlogId)
    requires blog in st.blogs && LikeKey(caller.id, blog) !in st.likes
    ensures var s1 := ToggleLike(st, caller, blog, None).store;
            var o2 := ToggleLike(s1, caller, blog, None);
            && o2.code == OK && o2.data.value.isLiked
            && LikeKey(caller.id, blog) in o2.store.likes && o2.store.likes[LikeKey(caller.id, blog)].kind == Like
            && o2.store != st
  {
    var s1 := ToggleLike(st, caller, blog, None).store;
    OmittedTypeNeverRemoves(s1, caller, blog);
  }

  /** With the intended comparison, any submission twice from no reaction returns to no reaction. */
  lemma IntendedTwiceRestores(st: Store, caller: Caller, blog: BlogId, kind: Option<LikeType>)
    requires Valid(st) && blog in st.blogs && LikeKey(caller.id, blog) !in st.likes
    ensures var o1 := ToggleLikeIntended(st, caller, blog, kind);
            var o2 := ToggleLikeIntended(o1.store, caller, blog, kind);
            o1.code == Created && o2.code == OK && o2.store == st && !o2.data.value.isLiked
  {
    var o1 := ToggleLikeIntended(st, caller, blog, kind);
    AddThenRemoveRestores(st, o1.store, ToggleLikeIntended(o1.store, caller, blog, kind).store, caller.id, blog, kind.GetOr(Like));
  }

  /** The two versions differ only when the type is omitted. */
  lemma IntendedAgreesOnExplicitType(st: Store, caller: Caller, blog: BlogId, kind: LikeType)
    ensures ToggleLikeIntended(st, caller, blog, Some(kind)) == ToggleLike(st, caller, blog, Some(kind))
  {
  }

  datatype LikeStats = LikeStats(totalLikes: nat, totalDislikes: nat, total: nat)
  datatype BlogLikes = BlogLikes(likes: seq<UserId>, stats: LikeStats)

  /** `Like.find({ blog })`: the Like documents that name the blog. */
  function RecordsOf(st: Store, blog: BlogId): set<LikeKey> {
    set k | k in st.likes && st.likes[k].blog == blog
  }

  /** `Like.find({ blog, type: kind })`: the blog's Like documents of one reaction. */
  ghost function RecordsOfKind(st: Store, blog: BlogId, kind: LikeType): set<LikeKey> {
    set k | k in st.likes && st.likes[k].blog == blog && st.likes[k].kind == kind
  }

  /** GET /api/likes/blog/:blogId: 404, or the blog's `likes` list with the counts of its Like documents by type. */
  function GetBlogLikes(st: Store, blog: BlogId): (o: Outcome<BlogLikes>)
    ensures blog !in st.blogs ==> o == Fail(st, NotFound)
    ensures blog in st.blogs ==>
              && o.code == OK && o.store == st && o.data.Some?
              && o.data.value.likes == st.blogs[blog].likes
              && o.data.value.stats.totalLikes == |RecordsOfKind(st, blog, Like)|
              && o.data.value.stats.totalDislikes == |RecordsOfKind(st, blog, Dislike)|
              && o.data.value.stats.totalLikes + o.data.value.stats.totalDislikes == o.data.value.stats.total
              && o.data.value.stats.total == |RecordsOf(st, blog)|
              && (o.data.value.stats.totalDislikes == 0 <==> forall k :: k in RecordsOf(st, blog) ==> st.likes[k].kind == Like)
  {
    if blog !in st.blogs then Fail(st, NotFound)
    else
      var records := RecordsOf(st, blog);
      KindsPartition(st, records);
      assert OfKind(st, records, Like) == RecordsOfKind(st, blog, Like);
      assert OfKind(st, records, Dislike) == RecordsOfKind(st, blog, Dislike);
      Outcome(OK, st, Some(BlogLikes(st.blogs[blog].likes, LikeStats(|OfKind(st, records, Like)|, |OfKind(st, records, Dislike)|, |records|))))
  }

  /** The records among `records` whose reaction is `kind`. */
  function OfKind(st: Store, records: set<LikeKey>, kind: LikeType): set<LikeKey>
    requires records <= st.likes.Keys
  {
    set k | k in records && st.likes[k].kind == kind
  }

  /** Every record is a like or a dislike, never both. */
  lemma KindsPartition(st: Store, records: set<LikeKey>)
    requires records <= st.likes.Keys
    ensures |OfKind(st, records, Like)| + |OfKind(st, records, Dislike)| == |records|
    ensures OfKind(st, records, Dislike) == {} <==> forall k :: k in records ==> st.likes[k].kind == Like
  {
    var likes, dislikes := OfKind(st, records, Like), OfKind(st, records, Dislike);
    assert records == likes + dislikes && likes * dislikes == {};
    if dislikes != {} {
      var k :| k in dislikes;
    }
  }

  /** The Like documents of one blog, one per user: the image of a set of users is as large as the set. */
  lemma {:induction false} PairsCard(users: set<UserId>, blog: BlogId)
    ensures |set u | u in users :: LikeKey(u, blog)| == |users|
  {
    if users != {} {
      var x :| x in users;
      var rest := users - {x};
      PairsCard(rest, blog);
      assert (set u | u in users :: LikeKey(u, blog)) == (set u | u in rest :: LikeKey(u, blog)) + {LikeKey(x, blog)};
    }
  }

  /** On a consistent store the reported total equals the number of users in `Blog.likes`. */
  lemma BlogLikesTotalMatchesList(st: Store, blog: BlogId)
    requires Valid(st) && blog in st.blogs
    ensures GetBlogLikes(st, blog).data.value.stats.total == |st.blogs[blog].likes|
  {
    var likes := st.blogs[blog].likes;
    assert RecordsOf(st, blog) == set u | u in Elements(likes) :: LikeKey(u, blog) by {
      forall k | k in RecordsOf(st, blog) ensures k.user in Elements(likes) && k == LikeKey(k.user, blog) {
      }
    }
    PairsCard(Elements(likes), blog);
    NoDupLength(likes);
  }

  datatype LikeStatus = LikeStatus(isLiked: bool, likeType: Option<LikeType>)

  /**
   * GET /api/likes/blog/:blogId/status: whether the caller has a reaction and of what type.
   * The blog itself is not looked up, so a missing blog reports no reaction.
   */
  function GetUserLikeStatus(st: Store, caller: Caller, blog: BlogId): (o: Outcome<LikeStatus>)
    ensures o.code == OK && o.store == st && o.data.Some?
    ensures o.data.value.isLiked <==> LikeKey(caller.id, blog) in st.likes
    ensures o.data.value.likeType == if LikeKey(caller.id, blog) in st.likes then Some(st.likes[LikeKey(caller.id, blog)].kind) else None
  {
    var existing := Existing(st, caller, blog);
    Outcome(OK, st, Some(LikeStatus(existing.Some?, existing)))
  }

  /** After a toggle the status endpoint agrees with the toggle's answer, and reports the explicit type submitted. */
  lemma StatusAfterToggle(st: Store, caller: Caller, blog: BlogId, kind: Option<LikeType>)
    requires blog in st.blogs
    ensures var o := ToggleLike(st, caller, blog, kind);
            var status := GetUserLikeStatus(o.store, caller, blog).data.value;
            && status.isLiked == o.data.value.isLiked
            && (status.isLiked ==> status.likeType == Some(kind.GetOr(Like)))
            && (status.isLiked && kind.Some? ==> status.likeType == o.data.value.likeType)
  {
  }

  /** The unique index: two Like documents for the same user and blog are the same document. */
  lemma OneRecordPerPair(st: Store, k1: LikeKey, k2: LikeKey)
    requires LikesIndexed(st) && k1 in st.likes && k2 in st.likes
    requires st.likes[k1].user == st.likes[k2].user && st.likes[k1].blog == st.likes[k2].blog
    ensures k1 == k2
  {
  }

  /** A new Like document without a type gets the schema default `like`. */
  lemma CreatedTypeDefaultsToLike(st: Store, caller: Caller, blog: BlogId)
    requires blog in st.blogs && LikeKey(caller.id, blog) !in st.likes
    ensures ToggleLike(st, caller, blog, None).store.likes[LikeKey(caller.id, blog)] == LikeRecord(caller.id, blog, Like)
  {
  }
}

=== FILE: model.dfy ===
/**
 * The documents of the blog backend and the in-memory store that stands in for the
 * document database: one finite map per collection, keyed by document id.
 */
module Model {
  import opened Wrappers

  type UserId = nat
  type BlogId = nat
  type CommentId = nat
  type CategoryId = nat

  /** The role enum of the User schema. */
  datatype Role = Admin | Author | Reader

  /** The authenticated identity attached to a request. */
  datatype Caller = Caller(id: UserId, role: Role)

  datatype PublishStatus = Draft | Published

  /** The `type` enum of the Like schema. */
  datatype LikeType = Like | Dislike

  datatype Blog = Blog(
    title: string,
    content: string,
    excerpt: Option<string>,
    author: UserId,
    category: CategoryId,
    tags: seq<string>,
    featuredImage: string,
    status: PublishStatus,
    isPublished: bool,
    views: nat,
    likes: seq<UserId>,        // users with any reaction (like or dislike)
    comments: seq<CommentId>)  // top-level comments only

  datatype Comment = Comment(
    content: string,
    author: UserId,
    blog: BlogId,
    parentComment: Option<CommentId>,  // None for a top-level comment
    replies: seq<CommentId>,
    isApproved: bool,
    likes: seq<UserId>)

  datatype Category = Category(
    name: string,
    description: Option<string>,
    color: string,
    isActive: bool)

  /**
   * The unique compound index { user, blog } of the Like schema: a Like document is
   * stored under the pair it names, so at most one exists per pair.
   */
  datatype LikeKey = LikeKey(user: UserId, blog: BlogId)

  /** A Like document: both references are required, `kind` is the `type` field. */
  datatype LikeRecord = LikeRecord(user: UserId, blog: BlogId, kind: LikeType)

  datatype Store = Store(
    blogs: map<BlogId, Blog>,
    comments: map<CommentId, Comment>,
    categories: map<CategoryId, Category>,
    likes: map<LikeKey, LikeRecord>)

  /** What a handler answers: the HTTP status code, the store after the request, and the payload if any. */
  datatype Outcome<T> = Outcome(code: int, store: Store, data: Option<T>)

  const OK := 200
  const Created := 201
  const BadRequest := 400
  const Forbidden := 403
  const NotFound := 404

  /** A failed request: the store is left as it was and nothing is returned. */
  function Fail<T>(st: Store, code: int): Outcome<T> {
    Outcome(code, st, None)
  }
}

=== FILE: pagination.dfy ===
/** Offset/limit pagination shared by the blog, "my blogs" and comment listings. */
module Pagination {
  import opened Wrappers
  import opened Seqs

  /** The page of a listing together with its `pagination` block. */
  datatype PageOf<T> = PageOf(items: seq<T>, page: nat, limit: nat, total: nat, pages: nat)

  /** `parseInt(raw) || fallback`: an absent value or 0 falls back to the default. */
  function ParsedOr(raw: Option<nat>, fallback: nat): (n: nat)
    ensures raw.Some? && raw.value != 0 ==> n == raw.value
    ensures raw.None? || raw.value == 0 ==> n == fallback
    ensures n == 0 ==> fallback == 0
  {
    if raw.Some? && raw.value != 0 then raw.value else fallback
  }

  /** The number of matches skipped before page `page` (pages are numbered from 1). */
  function Skip(page: nat, limit: nat): nat
    requires page >= 1
  {
    (page - 1) * limit
  }

  /**
   * The items on page `page`: `.skip((page - 1) * limit).limit(limit)`. The page is full,
   * or it runs to the end of the listing, and it holds the items after the skipped ones.
   */
  function Window<T(==)>(xs: seq<T>, page: nat, limit: nat): (r: seq<T>)
    requires page >= 1 && limit >= 1
    ensures |r| <= limit
    ensures |r| == limit || Skip(page, limit) + |r| >= |xs|
    ensures forall i :: 0 <= i < |r| ==> Skip(page, limit) + i < |xs| && r[i] == xs[Skip(page, limit) + i]
    ensures NoDup(xs) ==> NoDup(r)
  {
    var skip := Skip(page, limit);
    if skip >= |xs| then []
    else if skip + limit <= |xs| then xs[skip .. skip + limit]
    else xs[skip ..]
  }

  /** Every item on a page is one of the listed items. */
  lemma WindowWithin<T>(xs: seq<T>, page: nat, limit: nat)
    requires page >= 1 && limit >= 1
    ensures forall x :: x in Window(xs, page, limit) ==> x in xs
  {
  }

  /** `Math.ceil(total / limit)` on naturals: the fewest pages of `limit` items that hold `total` items. */
  function PageCount(total: nat, limit: nat): (pages: nat)
    requires limit >= 1
    ensures pages * limit >= total
    ensures pages > 0 ==> (pages - 1) * limit < total
    ensures pages == 0 <==> total == 0
  {
    var q := (total + limit - 1) / limit;
    var r := (total + limit - 1) % limit;
    assert total + limit - 1 == q * limit + r;
    assert q * limit == total + limit - 1 - r;
    assert (q - 1) * limit == q * limit - limit;
    q
  }

  /** Every item lies on one of the pages 1 .. PageCount(|xs|, limit). */
  lemma WindowCovers<T>(xs: seq<T>, limit: nat, i: nat)
    requires limit >= 1 && i < |xs|
    ensures 1 <= i / limit + 1 <= PageCount(|xs|, limit)
    ensures xs[i] in Window(xs, i / limit + 1, limit)
  {
    var page := i / limit + 1;
    var k := i % limit;
    assert i == (i / limit) * limit + k;
    assert Skip(page, limit) == (i / limit) * limit;
    var w := Window(xs, page, limit);
    var pages := PageCount(|xs|, limit);
    assert (i / limit) * limit < pages * limit;
    MulCancel(i / limit, pages, limit);
    assert |w| > k by {
      if Skip(page, limit) + limit <= |xs| {
        assert |w| == limit;
      } else {
        assert |w| == |xs| - Skip(page, limit);
      }
    }
    assert w[k] == xs[i];
  }

  /** Page `q` starts at least a full page after page `p` starts. */
  lemma SkipGap(p: nat, q: nat, limit: nat)
    requires 1 <= p < q
    ensures Skip(p, limit) + limit <= Skip(q, limit)
  {
    MulMonotone(p, q - 1, limit);
  }

  lemma MulMonotone(a: nat, b: nat, c: nat)
    requires a <= b
    ensures a * c <= b * c
  {
  }

  lemma MulCancel(a: nat, b: nat, c: nat)
    requires a * c < b * c
    ensures a < b
  {
  }

  /** Two different pages of a duplicate-free listing share no item. */
  lemma WindowsDisjoint<T>(xs: seq<T>, limit: nat, p: nat, q: nat, x: T)
    requires NoDup(xs) && limit >= 1 && 1 <= p < q
    requires x in Window(xs, p, limit)
    ensures x !in Window(xs, q, limit)
  {
    var wp := Window(xs, p, limit);
    var wq := Window(xs, q, limit);
    var i :| 0 <= i < |wp| && wp[i] == x;
    var sp, sq := Skip(p, limit), Skip(q, limit);
    SkipGap(p, q, limit);
    assert sp + i < |xs| && xs[sp + i] == x;
    forall j | 0 <= j < |wq| ensures wq[j] != x {
      assert sq + j < |xs| && wq[j] == xs[sq + j];
      assert sp + i < sq + j;
    }
  }

  /** The page holds exactly `min(limit, |xs| - skip)` items, and none past the end. */
  lemma WindowLength<T>(xs: seq<T>, page: nat, limit: nat)
    requires page >= 1 && limit >= 1
    ensures Skip(page, limit) >= |xs| ==> |Window(xs, page, limit)| == 0
    ensures Skip(page, limit) < |xs| ==>
              |Window(xs, page, limit)| == if limit <= |xs| - Skip(page, limit) then limit else |xs| - Skip(page, limit)
  {
    var w := Window(xs, page, limit);
    if |w| > 0 {
      assert Skip(page, limit) + |w| - 1 < |xs|;
    }
  }

  /** A page of an ordered listing is ordered. */
  lemma WindowOrdered<T>(xs: seq<T>, page: nat, limit: nat, r: (T, T) -> bool)
    requires page >= 1 && limit >= 1 && Ordered(xs, r)
    ensures Ordered(Window(xs, page, limit), r)
  {
    var w := Window(xs, page, limit);
    forall i, j | 0 <= i < j < |w| ensures r(w[i], w[j]) {
      assert w[i] == xs[Skip(page, limit) + i] && w[j] == xs[Skip(page, limit) + j];
    }
  }

  /** One page of an already ordered listing, with its `pagination` block. */
  function Paginate<T(==)>(all: seq<T>, page: nat, limit: nat): (p: PageOf<T>)
    requires page >= 1 && limit >= 1
    ensures p.page == page && p.limit == limit && p.total == |all|
    ensures |p.items| <= limit
    ensures forall x :: x in p.items ==> x in all
    ensures |p.items| == limit || Skip(page, limit) + |p.items| >= |all|
    ensures forall i :: 0 <= i < |p.items| ==> Skip(page, limit) + i < |all| && p.items[i] == all[Skip(page, limit) + i]
    ensures NoDup(all) ==> NoDup(p.items)
    ensures p.pages * limit >= p.total
    ensures p.pages > 0 ==> (p.pages - 1) * limit < p.total
  {
    WindowWithin(all, page, limit);
    PageOf(Window(all, page, limit), page, limit, |all|, PageCount(|all|, limit))
  }
}

=== FILE: seqs.dfy ===
/** Sequence helpers for the array fields of the documents (likes, replies, comments). */
module Seqs {

  /** No element occurs twice. */
  predicate NoDup<T(==)>(s: seq<T>) {
    forall i, j :: 0 <= i < j < |s| ==> s[i] != s[j]
  }

  /** Every element of `keys` occurs exactly once in `s`, and nothing else does. */
  ghost predicate Enumerates<T(!new)>(s: seq<T>, keys: set<T>) {
    NoDup(s) && forall x :: x in s <==> x in keys
  }

  /** The tail of a duplicate-free sequence is duplicate-free and does not contain the head. */
  lemma NoDupTail<T>(s: seq<T>)
    requires NoDup(s) && s != []
    ensures NoDup(s[1..]) && s[0] !in s[1..]
  {
    forall i, j | 0 <= i < j < |s[1..]| ensures s[1..][i] != s[1..][j] {
      assert s[1..][i] == s[i + 1] && s[1..][j] == s[j + 1];
    }
    forall k | 0 <= k < |s[1..]| ensures s[1..][k] != s[0] {
      assert s[1..][k] == s[k + 1];
    }
  }

  /** A document store's `$pull`: removes every occurrence of `x`, keeping the order of the rest. */
  function Pull<T(==,!new)>(s: seq<T>, x: T): (r: seq<T>)
    ensures forall y :: y in r <==> y in s && y != x
    ensures multiset(r) == multiset(s)[x := 0]
    ensures x !in s ==> r == s
    ensures NoDup(s) ==> NoDup(r)
    ensures NoDup(s) && x in s ==> |r| == |s| - 1
  {
    if s == [] then []
    else
      assert s == [s[0]] + s[1..];
      var rest := Pull(s[1..], x);
      PullStepCounts(s[0], s[1..], rest, x);
      if s[0] == x then
        if NoDup(s) then NoDupTail(s); rest else rest
      else
        if NoDup(s) then NoDupTail(s); [s[0]] + rest else [s[0]] + rest
  }

  /** One step of `$pull`: dropping or keeping the head preserves every count except `x`'s. */
  lemma PullStepCounts<T>(h: T, t: seq<T>, rest: seq<T>, x: T)
    requires multiset(rest) == multiset(t)[x := 0]
    ensures multiset(if h == x then rest else [h] + rest) == multiset([h] + t)[x := 0]
  {
    assert multiset([h] + t) == multiset{h} + multiset(t);
    assert multiset([h] + rest) == multiset{h} + multiset(rest);
  }

  /** What `$pull` keeps stays in the order it had. */
  lemma {:induction false} PullKeepsOrder<T(!new)>(s: seq<T>, x: T)
    ensures Ordered(Pull(s, x), Precedes(s))
  {
    if s != [] {
      PullKeepsOrder(s[1..], x);
      var rest := Pull(s[1..], x);
      if s[0] == x {
        OrderedInTail(s, rest);
      } else {
        OrderedConsInTail(s, rest);
      }
    }
  }

  /** The test `$pull` applies to each element: it differs from the pulled one. */
  function Differs<T(==)>(x: T): T -> bool {
    y => y != x
  }

  /** `$pull` is the selection of the elements that differ from the pulled one, position for position. */
  lemma {:induction false} PullIsFilter<T(!new)>(s: seq<T>, x: T)
    ensures Pull(s, x) == Filter(s, Differs(x))
  {
    if s != [] {
      PullIsFilter(s[1..], x);
    }
  }

  /** An order taken from the tail of `s` is also an order taken from `s`. */
  lemma OrderedInTail<T>(s: seq<T>, rest: seq<T>)
    requires s != [] && Ordered(rest, Precedes(s[1..]))
    ensures Ordered(rest, Precedes(s))
  {
    forall i, j | 0 <= i < j < |rest| ensures Precedes(s)(rest[i], rest[j]) {
      var t := s[1..];
      assert Precedes(t)(rest[i], rest[j]);
      var a, b :| 0 <= a < b < |t| && t[a] == rest[i] && t[b] == rest[j];
      assert s[a + 1] == rest[i] && s[b + 1] == rest[j];
    }
  }

  /** Keeping the head of `s` in front of elements taken in order from its tail keeps `s`'s order. */
  lemma OrderedConsInTail<T>(s: seq<T>, rest: seq<T>)
    requires s != [] && Ordered(rest, Precedes(s[1..]))
    requires forall y :: y in rest ==> y in s[1..]
    ensures Ordered([s[0]] + rest, Precedes(s))
  {
    OrderedInTail(s, rest);
    var f := [s[0]] + rest;
    forall i, j | 0 <= i < j < |f| ensures Precedes(s)(f[i], f[j]) {
      assert f[j] == rest[j - 1];
      if i == 0 {
        var t := s[1..];
        assert rest[j - 1] in t;
        var k :| 0 <= k < |t| && t[k] == rest[j - 1];
        assert s[k + 1] == f[j];
      } else {
        assert f[i] == rest[i - 1];
      }
    }
  }

  /** A `$push` of a new element keeps a sequence duplicate-free. */
  lemma NoDupAppend<T>(s: seq<T>, x: T)
    requires NoDup(s) && x !in s
    ensures NoDup(s + [x])
  {
    forall i, j | 0 <= i < j < |s + [x]| ensures (s + [x])[i] != (s + [x])[j] {
      if j == |s| {
        assert (s + [x])[i] == s[i];
      }
    }
  }

  /** `$pull` undoes a `$push` of an element that was absent. */
  lemma PullAppended<T(!new)>(s: seq<T>, x: T)
    requires x !in s
    ensures Pull(s + [x], x) == s
  {
    if s != [] {
      assert (s + [x])[1..] == s[1..] + [x];
      PullAppended(s[1..], x);
    }
  }

  /** The elements of `s` that satisfy `p`, in their original order. */
  function Filter<T(==,!new)>(s: seq<T>, p: T -> bool): (r: seq<T>)
    ensures forall y :: y in r <==> y in s && p(y)
    ensures |r| <= |s|
    ensures NoDup(s) ==> NoDup(r)
  {
    if s == [] then []
    else if p(s[0]) then
      var rest := Filter(s[1..], p);
      assert s == [s[0]] + s[1..];
      if NoDup(s) then NoDupTail(s); [s[0]] + rest else [s[0]] + rest
    else
      if NoDup(s) then NoDupTail(s); Filter(s[1..], p) else Filter(s[1..], p)
  }

  /** The elements of a sequence, as a set. */
  function Elements<T(==,!new)>(s: seq<T>): set<T> {
    set x | x in s
  }

  /** A duplicate-free sequence is as long as its set of elements is large. */
  lemma {:induction false} NoDupLength<T(!new)>(s: seq<T>)
    requires NoDup(s)
    ensures |Elements(s)| == |s|
  {
    if s != [] {
      NoDupTail(s);
      NoDupLength(s[1..]);
      assert Elements(s) == Elements(s[1..]) + {s[0]} by {
        assert s == [s[0]] + s[1..];
      }
    }
  }

  /** The members of `keys` that satisfy `p`. */
  ghost function Satisfying<T(!new)>(keys: set<T>, p: T -> bool): set<T> {
    set x | x in keys && p(x)
  }

  /** Filtering a sequence that enumerates a set yields as many items as the set has members satisfying `p`. */
  lemma FilterCount<T(!new)>(s: seq<T>, keys: set<T>, p: T -> bool)
    requires Enumerates(s, keys)
    ensures |Filter(s, p)| == |Satisfying(keys, p)|
  {
    var r := Filter(s, p);
    NoDupLength(r);
    assert Elements(r) == Satisfying(keys, p);
  }

  /** Every earlier element stands in relation `r` to every later one. */
  ghost predicate Ordered<T>(s: seq<T>, r: (T, T) -> bool) {
    forall i, j :: 0 <= i < j < |s| ==> r(s[i], s[j])
  }

  /** Filtering keeps the relative order of what it keeps. */
  lemma {:induction false} FilterOrdered<T(!new)>(s: seq<T>, p: T -> bool, r: (T, T) -> bool)
    requires Ordered(s, r)
    ensures Ordered(Filter(s, p), r)
  {
    if s != [] {
      OrderedTail(s, r);
      FilterOrdered(s[1..], p, r);
      var rest := Filter(s[1..], p);
      if p(s[0]) {
        forall y | y in rest ensures r(s[0], y) {
          var k :| 0 <= k < |s[1..]| && s[1..][k] == y;
          assert s[k + 1] == y;
        }
        OrderedCons(s[0], rest, r);
        assert Filter(s, p) == [s[0]] + rest;
      } else {
        assert Filter(s, p) == rest;
      }
    }
  }

  lemma OrderedTail<T>(s: seq<T>, r: (T, T) -> bool)
    requires Ordered(s, r) && s != []
    ensures Ordered(s[1..], r)
  {
    forall i, j | 0 <= i < j < |s[1..]| ensures r(s[1..][i], s[1..][j]) {
      assert s[1..][i] == s[i + 1] && s[1..][j] == s[j + 1];
    }
  }

  lemma OrderedCons<T>(x: T, rest: seq<T>, r: (T, T) -> bool)
    requires Ordered(rest, r)
    requires forall y :: y in rest ==> r(x, y)
    ensures Ordered([x] + rest, r)
  {
    var f := [x] + rest;
    forall i, j | 0 <= i < j < |f| ensures r(f[i], f[j]) {
      assert f[j] == rest[j - 1];
      if i > 0 {
        assert f[i] == rest[i - 1];
      }
    }
  }

  /** `a` occurs before `b` in `s`: the relative order a sort puts on its output. */
  ghost function Precedes<T>(s: seq<T>): (T, T) -> bool {
    (a, b) => exists i, j :: 0 <= i < j < |s| && s[i] == a && s[j] == b
  }

  /** Selecting elements of `s` keeps them in the order they have in `s`. */
  lemma FilterKeepsOrder<T(!new)>(s: seq<T>, p: T -> bool)
    ensures Ordered(Filter(s, p), Precedes(s))
  {
    forall i, j | 0 <= i < j < |s| ensures Precedes(s)(s[i], s[j]) {
    }
    FilterOrdered(s, p, Precedes(s));
  }
}

=== FILE: wrappers.dfy ===
/** Optional values: a request field that may be absent, a reference that may be null. */
module Wrappers {

  datatype Option<+T> = None | Some(value: T) {

    /** Returns the value in Some, or the given default when None. */
    function GetOr(default: T): T {
      match this
      case Some(v) => v
      case None => default
    }
  }
}
